=== FILE: README.md ===
# Memphis function templates, modelled in Dafny

Memphis functions are user code that a Memphis station runs on batches of
messages. The repository ships two templates that wrap a user's event handler
into such a function:

- a Go one, `CreateFunction` with its `LambdaHandler` closure;
- a Python one, `create_function` with its inner `handler`.

Both templates take an event made of a batch of messages and the function's
inputs. Every message has headers and a base64 payload. For each message the
template:

1. decodes the payload;
2. hands it to the user's handler;
3. sorts the answer into one of three buckets:
   - passed on to the station, with its payload re-encoded as base64;
   - failed, echoing the message's headers and its original payload with an error text, for the dead-letter station;
   - filtered out.

This project models that core:

- `Wrappers` (`wrappers.dfy`): `Option` and `Result`.
- `Common` (`common.dfy`): the `Bytes` and `Headers` types both templates use.
- `Base64` (`base64.dfy`): the standard base64 alphabet of section 4 of RFC 4648, with padding.
  - `Encode` behaves like Go's `StdEncoding.EncodeToString` and Python's `b64encode`.
  - `StdDecode` behaves like Go's `StdEncoding.DecodeString`. It skips CR and LF, demands exact padding, and does not reject stray low bits in the final quantum.
  - The module proves that decoding inverts encoding.
  - It also proves that encoding inverts decoding exactly on text without stray bits.
- `Buckets` (`buckets.dfy`): the three-way sorting that both templates share.
  - Each message's `Outcome` is `Emit`, `Fail`, `Drop`, or `Abort` (a Go panic).
  - `Sort` distributes a sequence of outcomes into the two output lists.
  - Lemmas cover counting, order, positions and concatenation.
- `MemphisGo` (`memphis_go.dfy`): the Go template.
  - Types: the message and event records, `PayloadOptions`, `PayloadInfo`, and the `BYTES`/`JSON` payload types.
  - Options are applied in order; a nil option is skipped and the first error ends the invocation.
  - The message loop: decoding, the handler input (raw bytes, or the shared user object after unmarshalling), the call, marshalling, the error bucket, and the nil filter.
  - Go's `any` results are `Any<V>`: `Nil`, a `[]byte`, or another value.
  - The user object is one pointer shared by every message, so the model threads it through the loop as state.
- `MemphisPy` (`memphis_py.dfy`): the Python template.
  - Python values are `PyObj`.
  - The message loop: `b64decode`, the optional JSON parse, the handler call, the `isinstance` checks, and the two raised error texts.
  - Any exception derived from `Exception` turns into a failed entry.
  - The final `json.dumps` with the `EncodeBase64` encoder is modelled as a translation into a `Json` value. It either succeeds or yields the error string that replaces the whole response.

The handler and the library routines the templates call are parameters, not
definitions:

- Go: `json.Unmarshal`, `json.Marshal`, and the text of a decoding error.
- Python: `b64decode`, UTF-8 decoding, and `json.loads`.

Every property therefore holds for every handler and every behaviour of those
routines.

### Behaviour a reader of the templates may not expect

The model follows the code. These consequences of the code are easy to miss
when reading the templates:

- **Go: a nil result is not always a filter.** When the handler returns a nil payload with non-nil headers and no error, `json.Marshal(nil)` turns the payload into the text `null`. The message is then passed on with payload `bnVsbA==`; see `MemphisGo.NilPayloadPassedOnAsNull`. This happens only for payload type `BYTES` or `JSON`. With any other payload type a nil payload is not marshalled, so it is dropped. A payload with nil headers is dropped silently, unless marshalling it fails, which fails the message; see `MemphisGo.NilHeadersFiltered` and `MemphisGo.MarshalErrorFails`. The Python template fails both mixed cases.
- **Go: messages are not independent when a user object is configured.** `UnmarshalIntoStruct` writes into the one object that `PayloadInfo` installed. Its error is ignored, and the handler may mutate the object. So a message can see state left by earlier ones. The model threads this state; see `MemphisGo.Step` and `MemphisGo.UnmarshalledEachMessage`. With no user object, the model's batch splits into independent messages; see `MemphisGo.BytesModeBatchSplits`. This holds only for handlers that do not write into the `inputs` map or the headers map they are given: both templates pass the same maps to every call, and the model leaves such writes out (see "## Left out").
- **Go: a panic is not a failed message.** Take a payload type other than `BYTES` or `JSON`, and a handler that returns no error, a non-`[]byte`, non-nil payload, and non-nil headers. Then the type assertion at `main.go:185` panics and the whole invocation ends, whatever the other messages did. The model's result is `Failure(TypeAssertionPanic)`.
- **Round trip is exact only for canonical base64.** When every message carries a headers object, a handler that returns its input unchanged reproduces the batch exactly when every payload is canonical base64. A Go message without headers is dropped instead; see "## Left out". `MemphisGo.PassThroughRoundTrip` proves the "if", and `MemphisGo.ReproducedOnlyIfCanonical` proves the "only if" for any handler. The decoder accepts stray bits, so `QR==` comes back as `QQ==` (`MemphisGo.PassThroughCanonicalizes`).
- **Python: one unserializable message spoils the whole batch.** If any passed-on entry's headers hold a value `json.dumps` rejects, the function returns only an error string. The other messages and failed entries are lost (`MemphisPy.CreateFunctionSpec`).

## Model

| member | source | states |
|---|---|---|
| Base64.CharOf | general_go_testing/main.go:185 | every sextet maps to a character of the base64 alphabet, never the pad character or a line break |
| Base64.ValueOf | general_go_testing/main.go:148 | a character has a sextet value exactly when it is in the alphabet, and that value maps back to the same character; pad and line breaks have none |
| Base64.ValueOfCharOf | general_go_testing/main.go:148 | reading a sextet's character gives back the sextet |
| Base64.EncodeGroup | general_go_testing/main.go:185 | three octets become four alphabet characters |
| Base64.EncodeOne | general_go_testing/main.go:185 | a final single octet becomes two alphabet characters and two pad characters |
| Base64.EncodeTwo | general_go_testing/main.go:185 | a final pair of octets becomes three alphabet characters and one pad character |
| Base64.Encode | general_go_testing/main.go:185 | the encoding of n octets has length 4 * ceil(n / 3) and uses only alphabet and pad characters |
| Base64.DecodeQuantum | general_go_testing/main.go:148 | a decoded quantum holds one to three octets |
| Base64.DecodeQuanta | general_go_testing/main.go:148 | decodable text has a length divisible by four, and it is empty exactly when its octets are |
| Base64.StripLineBreaks | general_go_testing/main.go:148 | no CR or LF survives, and the text does not grow |
| Base64.StripLineBreaksAppend | general_go_testing/main.go:148 | removing line breaks from a concatenation removes them from each part and keeps the remaining characters in order |
| Base64.StripLineBreaksChar | general_go_testing/main.go:148 | a single character is removed if it is CR or LF and kept otherwise |
| Base64.GroupRoundTrip | general_go_testing/main.go:148 | the four sextets of three octets decode back to those octets |
| Base64.GroupQuantumRoundTrip | general_go_testing/main.go:148 | decoding the encoding of a three-octet group gives the group |
| Base64.OneOctetRoundTrip | general_go_testing/main.go:148 | decoding the padded encoding of one octet gives the octet |
| Base64.TwoOctetsRoundTrip | general_go_testing/main.go:148 | decoding the padded encoding of two octets gives the two octets |
| Base64.FinalQuantumRoundTrip | general_go_testing/main.go:148 | decoding the encoding of a final one or two octets gives them back |
| Base64.DecodeEncode | general_go_testing/main.go:148 | decoding the quanta of any encoding gives back the octets |
| Base64.StdDecodeEncode | general_go_testing/main.go:148-185 | decoding (line breaks skipped) any base64 text produced by the encoder gives back the original bytes |
| Base64.EncodeDecode | general_go_testing/main.go:148 | decodable text is re-encoded to itself if and only if it has no stray bits in its last quantum |
| Base64.QuantumRoundTrip | general_go_testing/main.go:185 | a full decoded quantum re-encodes to itself |
| Base64.EncodeDecodeFinal | general_go_testing/main.go:148 | a padded final quantum re-encodes to itself if and only if it has no stray bits |
| Base64.EncodeDecodeTwo | general_go_testing/main.go:148 | the same for a final quantum with one pad character |
| Base64.EncodeDecodeOne | general_go_testing/main.go:148 | the same for a final quantum with two pad characters |
| Base64.StrayBitsAccepted | general_go_testing/main.go:148 | `QR==` decodes to the single octet 65, whose encoding is `QQ==`, a different text |
| Buckets.SortAccounts | general_go_testing/main.go:147-191 | when nothing aborts, passed-on, failed and filtered outcomes add up to the batch size |
| Buckets.SortAppend | general_go_testing/main.go:147-191 | sorting a concatenation concatenates the two sorted lists |
| Buckets.DroppedAppend | general_go_testing/main.go:147-191 | filtered messages of a concatenation add up |
| Buckets.AbortsAppend | general_go_testing/main.go:147-191 | a concatenation panics exactly when one of its parts does |
| Buckets.SortAllEmitted | general_go_testing/main.go:184-190 | a batch of passed-on outcomes sorts into exactly those messages, in order, with no failures |
| Buckets.SortCons | general_go_testing/main.go:147-191 | the first outcome goes to the front of its list, and a filtered one changes nothing |
| Buckets.EmitPositionsExact | general_go_testing/main.go:184-190 | the passed-on list is the passed-on outcomes at increasing positions, and no passed-on outcome is missed |
| Buckets.FailPositionsExact | general_go_testing/main.go:175-182 | the failed list holds exactly the failed outcomes, in input order, at increasing positions. |
| MemphisGo.HandlerInputFor | general_go_testing/main.go:158-164 | the handler gets the decoded bytes exactly when no user object is configured |
| MemphisGo.Marshalled | general_go_testing/main.go:167-173 | a handler error is kept; a non-`[]byte` value survives unmarshalled only when there was an error or the payload type is neither `BYTES` nor `JSON` |
| MemphisGo.Step | general_go_testing/main.go:147-191 | processing a message keeps the user object present exactly when it was present |
| MemphisGo.LambdaHandler | general_go_testing/main.go:131-144 | an option error ends the invocation with that error |
| MemphisGo.States | general_go_testing/main.go:147-164 | there is one user-object state per message |
| MemphisGo.Outcomes | general_go_testing/main.go:147-191 | there is one outcome per message |
| MemphisGo.OutcomesAt | general_go_testing/main.go:147-191 | message i's outcome is one step on it with the user object left by the messages before it |
| MemphisGo.LoopSortsOutcomes | general_go_testing/main.go:146-193 | the loop panics exactly when some outcome aborts; otherwise it appends the sorted passed-on and failed lists |
| MemphisGo.LambdaHandlerSorts | general_go_testing/main.go:131-194 | once the options apply, the output is the sorted outcomes of the batch, or a panic if any message panics |
| MemphisGo.BatchAccounting | general_go_testing/main.go:146-193 | passed-on, failed and filtered messages add up to the batch; the output is never longer than the batch |
| MemphisGo.FailedEchoInputs | general_go_testing/main.go:150-154 | each failed entry carries its input message's headers and payload, failed entries are in input order, and every failed message is listed |
| MemphisGo.EmittedInOrder | general_go_testing/main.go:184-190 | the passed-on entries are the passed-on outcomes in input order with none missing, and each payload is canonical base64 |
| MemphisGo.StepFailEchoes | general_go_testing/main.go:150-154 | a failed message echoes its input's headers and payload |
| MemphisGo.StepEmitsCanonical | general_go_testing/main.go:184-190 | a passed-on payload is the base64 encoding of some bytes |
| MemphisGo.UndecodableFails | general_go_testing/main.go:148-156 | a payload that does not decode fails with the `couldn't decode message: ` prefix; the handler is not consulted and the user object is untouched |
| MemphisGo.ReplyDecidesBucket | general_go_testing/main.go:166-190 | for a decodable payload, the message fails iff the handler or marshalling erred; the invocation panics iff there is no error, the payload is a non-nil non-`[]byte` value, the payload type is neither `BYTES` nor `JSON`, and headers are present; the message is passed on iff there is no error, headers are present, and the payload is a `[]byte` or is marshalled (nil marshals to `null`) without error |
| MemphisGo.HandlerErrorFails | general_go_testing/main.go:175-182 | a handler error fails the message with that error's text |
| MemphisGo.MarshalErrorFails | general_go_testing/main.go:169-182 | a marshalling error fails the message with that error's text |
| MemphisGo.ByteSlicePassedOn | general_go_testing/main.go:184-190 | a `[]byte` result with headers is passed on as the base64 encoding of those bytes with the returned headers, and it decodes back to them |
| MemphisGo.ValuePassedOnMarshalled | general_go_testing/main.go:169-190 | another value with headers is passed on as the base64 encoding of its JSON marshalling with the returned headers, and it decodes back to those bytes |
| MemphisGo.NullJsonText | general_go_testing/main.go:171 | the JSON text `null` encodes as `bnVsbA==` |
| MemphisGo.NilPayloadPassedOnAsNull | general_go_testing/main.go:169-190 | a nil payload with headers and no error is passed on as `bnVsbA==` |
| MemphisGo.NilHeadersFiltered | general_go_testing/main.go:184 | nil headers with no handler error drop the message (all-nil replies and non-nil payloads alike), unless marshalling the payload fails |
| MemphisGo.UnmarshalledEachMessage | general_go_testing/main.go:158-161 | with a user object, what a message sees is what unmarshalling its payload into the object gives; the object after the step is the handler's |
| MemphisGo.StatesKeepPresence | general_go_testing/main.go:132-164 | the user object is present at every message, and at the end, exactly when it was configured |
| MemphisGo.OutcomesAppend | general_go_testing/main.go:147-191 | the outcomes of a concatenated batch are those of the first part, then those of the second starting from the state the first left |
| MemphisGo.BytesModeIndependent | general_go_testing/main.go:163 | without a user object, each outcome depends only on its own message |
| MemphisGo.BytesModeBatchSplits | general_go_testing/main.go:131-194 | without a user object, processing a concatenated batch concatenates the outputs, and it panics iff a part does |
| MemphisGo.ApplyOptionsAppend | general_go_testing/main.go:138-144 | applying two option lists in turn equals applying their concatenation; an error in the first skips the second |
| MemphisGo.NilOptionSkipped | general_go_testing/main.go:139 | a nil option changes nothing |
| MemphisGo.FailingOptionAborts | general_go_testing/main.go:140-142 | the first failing option ends the invocation with its error, whatever follows |
| MemphisGo.PayloadInfosLastWins | general_go_testing/main.go:106-112 | `PayloadInfo` never fails and sets only the user object and payload type, so the last one wins; the handler is untouched |
| MemphisGo.NoOptionsDefaults | general_go_testing/main.go:132-136 | with no options, there is no user object, the payload type is `BYTES` (so results are marshalled), and each message is processed on its own |
| MemphisGo.PassThroughRoundTrip | general_go_testing/main.go:130-197 | when every message carries a headers object, a handler that returns its input and headers unchanged reproduces a batch of canonical payloads exactly |
| MemphisGo.ReproducedOnlyIfCanonical | general_go_testing/main.go:148-185 | whatever the handler, a batch that comes back unchanged with nothing failed holds only canonical base64 payloads |
| MemphisGo.PassThroughCanonicalizes | general_go_testing/main.go:148-185 | the same handler turns `QR==` into `QQ==` |
| MemphisPy.HandlerPayload | general_testing/main.py:86-89 | a `b64decode` error is the message's error; without `as_json` the handler's payload exists exactly when decoding succeeds |
| MemphisPy.Classify | general_testing/main.py:96-108 | an entry is passed on iff the result is bytes and the headers a dict; filtered iff both are None |
| MemphisPy.Step | general_testing/main.py:85-114 | a message never aborts the batch, and a failure echoes its input's headers and payload |
| MemphisPy.LoopSortsOutcomes | general_testing/main.py:84-114 | the loop appends the sorted outcomes to what it holds |
| MemphisPy.HandlerSorts | general_testing/main.py:81-114 | the loop's lists are the sorted outcomes of the batch |
| MemphisPy.NeverAborts | general_testing/main.py:109-114 | no message ends the batch early |
| MemphisPy.BatchAccounting | general_testing/main.py:84-114 | passed-on, failed and filtered messages add up to the batch |
| MemphisPy.FailedEchoInputs | general_testing/main.py:109-114 | failed entries carry their input message's headers and payload, in input order, and every failure is listed |
| MemphisPy.PassedOnInOrder | general_testing/main.py:96-100 | passed-on entries are the successful outcomes in input order with none missing |
| MemphisPy.PayloadErrorFails | general_testing/main.py:86-89 | a payload that cannot be decoded or parsed fails the message with that error, whatever the handler |
| MemphisPy.HandlerGetsParsedJson | general_testing/main.py:86-89 | the handler gets the decoded bytes, or with `as_json` the parsed UTF-8 text; a UTF-8 error fails the message |
| MemphisPy.RaisedFails | general_testing/main.py:91-94 | an exception from the handler fails the message with its text |
| MemphisPy.ReturnedDecidesBucket | general_testing/main.py:96-108 | the result's types decide the bucket: bytes and dict are passed on, None and None are filtered, exactly one None gives the type-naming error, anything else the format error |
| MemphisPy.ToJsonList | general_testing/main.py:116-117 | a serialized list has one element per element of the list, each the serialization of the corresponding element |
| MemphisPy.ToJsonItems | general_testing/main.py:116-117 | serialized headers keep their keys in order |
| MemphisPy.ToJsonItemsValues | general_testing/main.py:116-117 | the serialized headers hold, under each key, the serialization of that key's value |
| MemphisPy.SerializeMessages | general_testing/main.py:116-117 | one serialized entry per passed-on message |
| MemphisPy.BytesSerializeAsBase64 | general_testing/main.py:74-78 | a bytes value is written as a string whose base64 decodes to those bytes |
| MemphisPy.ToJsonSucceedsIff | general_testing/main.py:74-78 | serialization succeeds exactly on values made of None, bools, ints, strings, bytes, lists, tuples and dicts, with no other object |
| MemphisPy.ToJsonListSucceedsIff | general_testing/main.py:74-78 | a list serializes iff each element does |
| MemphisPy.ToJsonItemsSucceedsIff | general_testing/main.py:74-78 | headers serialize iff each value does |
| MemphisPy.SerializeMessagesSucceedsIff | general_testing/main.py:116-117 | the passed-on list serializes iff every entry's headers do |
| MemphisPy.SerializedPayloadsDecode | general_testing/main.py:96-100 | every serialized payload decodes back to the handler's bytes, and every entry keeps its headers |
| MemphisPy.RespondSpec | general_testing/main.py:116-119 | the envelope is returned iff all passed-on headers serialize; it keeps the failed list and decodable payloads; otherwise the answer starts with the fixed error prefix |
| MemphisPy.CreateFunctionSpec | general_testing/main.py:80-121 | the response holds the sorted failures and decodable passed-on payloads, and it is refused exactly when some passed-on headers are not serializable |

## Left out

- The Lambda runtime is outside the model: `lambda.Start`, the `context` argument, and the Go `*MemphisEvent` pointer. `LambdaHandler` takes the event as a value.
- Python's `use_async` / `await` is outside the model. An awaited handler is modelled as a plain call, since the loop awaits each one before moving on.
- `json.Marshal`, `json.Unmarshal` (`UnmarshalIntoStruct`), `json.loads`, and UTF-8 decoding are parameters of the model, not definitions. Their results are arbitrary.
- Python's `base64.b64decode` is a parameter, because it is more lenient than the Go decoder: it discards non-alphabet characters.
- MemphisGo.UndecodableFails: the text after `couldn't decode message: ` is the parameter `decodeError`. Go's `CorruptInputError` message with the failing offset is not computed.
- Go's `reflect`-level details are outside the model. A typed nil pointer inside `any` is treated as a non-nil value; a nil `[]byte` is a `ByteSlice` holding no bytes.
- Go's `nil` input headers are outside the model. A message's headers are a `map` in the model, which cannot be nil, so every modelled message carries a headers object. In Go an absent map is not the same as an empty one. When the event has `"headers": null` or no `headers` key, `msg.Headers` is nil. A failed entry then echoes `null` (`main.go:151`/`177`). A handler that returns the headers it got returns nil headers, so the check at `main.go:184` drops the message.
- MemphisGo.PassThroughRoundTrip: holds only for events whose messages all carry a headers object. A message without headers is dropped by the pass-through handler, as the previous line explains, so that batch is not reproduced.
- Python floats, non-string dict keys, and the JSON text layout of `json.dumps` (spacing, escaping) are outside the model. The envelope is modelled as a JSON value, not as UTF-8 text.
- MemphisPy.MixedNoneError: for classes outside the built-in types, the Python `type()` rendering is given as module and class name. Other parts of `repr` are not modelled. A `PyObject` carries one class name, used both here and in the `json` error text of `MemphisPy.ToJson`. Python's `type()` prints the class's `__qualname__`, and `JSONEncoder.default` prints its `__name__`. For a nested class such as `Outer.Inner` these differ, so one of the two modelled texts is then wrong.
- The Python event is modelled with exactly the shape the template's docstring documents (`main.py:15-29`). Every message has `headers` and `payload`, the event has `inputs`, and headers are a dict of strings. The template behaves differently on other shapes, and the model leaves those out:
  - A message without `headers` or `payload` raises `KeyError` inside the `except` clause (`main.py:111-112`), so the invocation gives no response.
  - An event without `inputs` fails every decodable message with the text `'inputs'`.
  - `"headers": null` reaches the handler as `None`.
- The user object's state across invocations is outside the model. The model exposes the final state (`MemphisGo.FinalState`) but does not feed it into a next event.
- The example handlers at the bottom of both files, and the commented-out sample `main`, are outside the model.
- Side effects of a user handler other than its return value and the Go user object it mutates are outside the model. Two consequences follow:
  - Both templates pass the same inputs map to every handler call (`main.go:166`, `main.py:92`/`94`). A handler that writes into it carries state from one message to the next even without a user object. The model's handler cannot do this, so `MemphisGo.BytesModeIndependent` and `MemphisGo.BytesModeBatchSplits` hold only for handlers that leave the inputs map alone.
  - A failed entry echoes the message's headers map (`main.go:151`/`177`, `main.py:111`), which is the same map the handler received. Headers the handler wrote into it before failing are echoed too. The model's failed entries echo the headers as they arrived.
- MemphisPy.NeverAborts: holds only for exceptions derived from `Exception`. A handler that raises `SystemExit`, `KeyboardInterrupt` or another `BaseException` escapes the `except Exception` at `main.py:109`, and the invocation gives no response at all. The model's `Reply` has no constructor for this, because the handler is a total function.
- MemphisPy.Step: the same limit. Its "never aborts" clause does not cover a `BaseException` from the handler.
- MemphisGo.LambdaHandler: a panic inside the user handler at `main.go:166` ends the whole invocation. The model's handler is a total function, so the only panic it models is the type assertion at `main.go:185` (`TypeAssertionPanic`).
- MemphisPy.ToJsonSucceedsIff: instances of subclasses of the built-in types (`OrderedDict`, a subclass of `int` or `str`, and so on) are represented by their base type's constructor. This matches `isinstance` at `main.py:96` and how `json.dumps` treats them, but `TypeName` then names the base class instead of the subclass. `ToJson` also always succeeds on a `PyInt`, and it recurses to any depth. CPython 3.11 and later, and the security releases of 3.7–3.10, refuse to convert an `int` with more digits than `sys.get_int_max_str_digits()` (4300 by default). On such a value `json.dumps` raises `ValueError`. It raises `RecursionError` on nesting deeper than the recursion limit. It raises `ValueError: Circular reference detected` on a value that contains itself, such as a dict stored under one of its own keys; `PyObj` is a finite tree and cannot express such a value. At `main.py:118-119` each of these errors turns into the error string.
- MemphisPy.RespondSpec: inherits that gap. For a passed-on header value with an oversized `int`, too-deep nesting or a self-reference, the model answers with the envelope, while Python answers with the error string.
- MemphisPy.CreateFunctionSpec: inherits the same gap (oversized `int`, too-deep nesting, self-reference).

=== FILE: base64.dfy ===
/** Base64 with the standard alphabet and `=` padding (section 4 of RFC 4648),
    as Go's `base64.StdEncoding` decodes and encodes it and as Python's
    `base64.b64encode` encodes it.

    Decoding follows Go's decoder rather than the letter of the RFC in two ways:
    carriage returns and line feeds anywhere in the input are skipped, and the
    bits that the final quantum carries beyond the last whole octet are
    discarded instead of being required to be zero (Go's non-strict mode). */
module Base64 {
  import opened Wrappers

  /** An octet, as carried by Go's `[]byte` and Python's `bytes`. */
  type uint8 = x: int | 0 <= x < 256

  /** The 6-bit value of one character of the base64 alphabet. */
  type sextet = x: int | 0 <= x < 64

  const Pad: char := '='

  predicate IsLineBreak(c: char) {
    c == '\n' || c == '\r'
  }

  /** Table 1 of RFC 4648: the character that encodes `v`. */
  function CharOf(v: sextet): (c: char)
    ensures c != Pad && !IsLineBreak(c) && InAlphabet(c)
  {
    if v < 26 then ('A' as int + v) as char
    else if v < 52 then ('a' as int + (v - 26)) as char
    else if v < 62 then ('0' as int + (v - 52)) as char
    else if v == 62 then '+'
    else '/'
  }

  /** Table 1 read backwards: `None` for every character outside the alphabet,
      the pad character and line breaks included. */
  function ValueOf(c: char): (r: Option<sextet>)
    ensures r.Some? ==> CharOf(r.value) == c
    ensures c == Pad || IsLineBreak(c) ==> r.None?
    ensures r.Some? <==> InAlphabet(c)
  {
    if 'A' <= c <= 'Z' then Some(c as int - 'A' as int)
    else if 'a' <= c <= 'z' then Some(c as int - 'a' as int + 26)
    else if '0' <= c <= '9' then Some(c as int - '0' as int + 52)
    else if c == '+' then Some(62)
    else if c == '/' then Some(63)
    else None
  }

  lemma ValueOfCharOf(v: sextet)
    ensures ValueOf(CharOf(v)) == Some(v)
  {
    if v < 26 {
    } else if v < 52 {
    } else if v < 62 {
    }
  }

  /** The 64 characters of Table 1. */
  predicate InAlphabet(c: char) {
    'A' <= c <= 'Z' || 'a' <= c <= 'z' || '0' <= c <= '9' || c == '+' || c == '/'
  }

  /** A character an encoder may emit: one of the alphabet, or the pad. */
  predicate IsEncodingChar(c: char) {
    InAlphabet(c) || c == Pad
  }

  /** Three octets as four characters. */
  function EncodeGroup(x: uint8, y: uint8, z: uint8): (s: string)
    ensures |s| == 4 && forall i :: 0 <= i < 4 ==> InAlphabet(s[i])
  {
    [CharOf(x / 4), CharOf(x % 4 * 16 + y / 16), CharOf(y % 16 * 4 + z / 64), CharOf(z % 64)]
  }

  /** A final single octet: two characters and two pads. */
  function EncodeOne(x: uint8): (s: string)
    ensures |s| == 4 && s[2] == Pad && s[3] == Pad && InAlphabet(s[0]) && InAlphabet(s[1])
  {
    [CharOf(x / 4), CharOf(x % 4 * 16), Pad, Pad]
  }

  /** A final pair of octets: three characters and one pad. */
  function EncodeTwo(x: uint8, y: uint8): (s: string)
    ensures |s| == 4 && s[3] == Pad && forall i :: 0 <= i < 3 ==> InAlphabet(s[i])
  {
    [CharOf(x / 4), CharOf(x % 4 * 16 + y / 16), CharOf(y % 16 * 4), Pad]
  }

  /** Four sextets as three octets: the 24 bits of the quantum, high octet first. */
  function DecodeGroup(a: sextet, b: sextet, c: sextet, d: sextet): seq<uint8> {
    [a * 4 + b / 16, b % 16 * 16 + c / 4, c % 4 * 64 + d]
  }

  /** The padded encoding: whole groups of three octets, then a final group of
      one octet (two characters and `==`) or two octets (three characters and
      `=`), with the unused low bits set to zero. */
  function Encode(b: seq<uint8>): (s: string)
    ensures |s| == (|b| + 2) / 3 * 4
    ensures forall i :: 0 <= i < |s| ==> IsEncodingChar(s[i])
    decreases |b|
  {
    if |b| == 0 then []
    else if |b| == 1 then EncodeOne(b[0])
    else if |b| == 2 then EncodeTwo(b[0], b[1])
    else
      assert (|b| + 2) / 3 == (|b| - 1) / 3 + 1;
      EncodeGroup(b[0], b[1], b[2]) + Encode(b[3..])
  }

  /** One four-character quantum: four alphabet characters give three
      octets, three and a pad give two, two and two pads give one. */
  function DecodeQuantum(q: string): (r: Option<seq<uint8>>)
    requires |q| == 4
    ensures r.Some? ==> 1 <= |r.value| <= 3
  {
    match (ValueOf(q[0]), ValueOf(q[1]), ValueOf(q[2]), ValueOf(q[3]))
    case (Some(a), Some(b), Some(c), Some(d)) => Some(DecodeGroup(a, b, c, d))
    case (Some(a), Some(b), Some(c), None) =>
      if q[3] == Pad then Some(DecodeGroup(a, b, c, 0)[..2]) else None
    case (Some(a), Some(b), None, None) =>
      if q[2] == Pad && q[3] == Pad then Some(DecodeGroup(a, b, 0, 0)[..1]) else None
    case _ => None
  }

  /** Decoding of a line-break-free string: it must be a sequence of complete
      quanta, and padding may only close the last one. */
  function DecodeQuanta(s: string): (r: Option<seq<uint8>>)
    ensures r.Some? ==> |s| % 4 == 0 && (|r.value| == 0 <==> |s| == 0)
    decreases |s|
  {
    if |s| == 0 then Some([])
    else if |s| < 4 then None
    else
      match DecodeQuantum(s[..4])
      case None => None
      case Some(g) =>
        if |g| < 3 then (if |s| == 4 then Some(g) else None)
        else
          match DecodeQuanta(s[4..])
          case None => None
          case Some(rest) => Some(g + rest)
  }

  /** The text with every CR and LF removed, as Go's decoder skips them. */
  function StripLineBreaks(s: string): (r: string)
    ensures forall i :: 0 <= i < |r| ==> !IsLineBreak(r[i])
    ensures |r| <= |s|
    decreases |s|
  {
    if |s| == 0 then []
    else if IsLineBreak(s[0]) then StripLineBreaks(s[1..])
    else [s[0]] + StripLineBreaks(s[1..])
  }

  /** `base64.StdEncoding.DecodeString`: `None` where Go reports a
      `CorruptInputError`. */
  function StdDecode(s: string): Option<seq<uint8>> {
    DecodeQuanta(StripLineBreaks(s))
  }

  /** The final quantum carries no set bits below its last whole octet: the
      condition under which decoding loses nothing. */
  predicate NoStrayBits(s: string) {
    |s| >= 4 ==>
      && (s[|s| - 2] == Pad ==>
            ValueOf(s[|s| - 3]).Some? && ValueOf(s[|s| - 3]).value % 16 == 0)
      && (s[|s| - 2] != Pad && s[|s| - 1] == Pad ==>
            ValueOf(s[|s| - 2]).Some? && ValueOf(s[|s| - 2]).value % 4 == 0)
  }

  lemma GroupRoundTrip(x: uint8, y: uint8, z: uint8)
    ensures DecodeGroup(x / 4, x % 4 * 16 + y / 16, y % 16 * 4 + z / 64, z % 64) == [x, y, z]
  {
    var b: sextet := x % 4 * 16 + y / 16;
    var c: sextet := y % 16 * 4 + z / 64;
    assert b / 16 == x % 4 && b % 16 == y / 16;
    assert c / 4 == y % 16 && c % 4 == z / 64;
  }

  lemma SextetRoundTrip(a: sextet, b: sextet, c: sextet, d: sextet)
    ensures var g := DecodeGroup(a, b, c, d);
      g[0] / 4 == a && g[0] % 4 * 16 + g[1] / 16 == b
      && g[1] % 16 * 4 + g[2] / 64 == c && g[2] % 64 == d
  {
    assert (a * 4 + b / 16) / 4 == a && (a * 4 + b / 16) % 4 == b / 16;
    assert (b % 16 * 16 + c / 4) / 16 == b % 16 && (b % 16 * 16 + c / 4) % 16 == c / 4;
    assert (c % 4 * 64 + d) / 64 == c % 4 && (c % 4 * 64 + d) % 64 == d;
  }

  lemma GroupQuantumRoundTrip(x: uint8, y: uint8, z: uint8)
    ensures DecodeQuantum(EncodeGroup(x, y, z)) == Some([x, y, z])
  {
    ValueOfCharOf(x / 4);
    ValueOfCharOf(x % 4 * 16 + y / 16);
    ValueOfCharOf(y % 16 * 4 + z / 64);
    ValueOfCharOf(z % 64);
    GroupRoundTrip(x, y, z);
  }

  lemma FinalQuantumRoundTrip(b: seq<uint8>)
    requires 1 <= |b| <= 2
    ensures DecodeQuantum(Encode(b)) == Some(b)
  {
    if |b| == 1 {
      assert b == [b[0]] && Encode(b) == EncodeOne(b[0]);
      OneOctetRoundTrip(b[0]);
    } else {
      assert b == [b[0], b[1]] && Encode(b) == EncodeTwo(b[0], b[1]);
      TwoOctetsRoundTrip(b[0], b[1]);
    }
  }

  lemma OneOctetRoundTrip(x: uint8)
    ensures DecodeQuantum(EncodeOne(x)) == Some([x])
  {
    var s := EncodeOne(x);
    var a: sextet, b: sextet := x / 4, x % 4 * 16;
    assert s == [CharOf(a), CharOf(b), Pad, Pad];
    ValueOfCharOf(a);
    ValueOfCharOf(b);
    assert b / 16 == x % 4;
    assert DecodeGroup(a, b, 0, 0)[0] == x;
    assert DecodeQuantum(s) == Some(DecodeGroup(a, b, 0, 0)[..1]);
    assert DecodeGroup(a, b, 0, 0)[..1] == [x];
  }

  lemma TwoOctetsRoundTrip(x: uint8, y: uint8)
    ensures DecodeQuantum(EncodeTwo(x, y)) == Some([x, y])
  {
    var s := EncodeTwo(x, y);
    var a: sextet, b: sextet, c: sextet := x / 4, x % 4 * 16 + y / 16, y % 16 * 4;
    assert s == [CharOf(a), CharOf(b), CharOf(c), Pad];
    ValueOfCharOf(a);
    ValueOfCharOf(b);
    ValueOfCharOf(c);
    assert b / 16 == x % 4 && b % 16 == y / 16 && c / 4 == y % 16;
    assert DecodeGroup(a, b, c, 0)[0] == x && DecodeGroup(a, b, c, 0)[1] == y;
    assert DecodeQuantum(s) == Some(DecodeGroup(a, b, c, 0)[..2]);
    assert DecodeGroup(a, b, c, 0)[..2] == [x, y];
  }

  /** Decoding undoes encoding, for every octet string. */
  lemma {:induction false} DecodeEncode(b: seq<uint8>)
    ensures DecodeQuanta(Encode(b)) == Some(b)
    decreases |b|
  {
    var s := Encode(b);
    if |b| == 0 {
    } else if |b| < 3 {
      FinalQuantumRoundTrip(b);
      assert s[..4] == s;
    } else {
      DecodeEncode(b[3..]);
      DecodeEncodeGroup(b);
    }
  }

  lemma DecodeEncodeGroup(b: seq<uint8>)
    requires |b| >= 3 && DecodeQuanta(Encode(b[3..])) == Some(b[3..])
    ensures DecodeQuanta(Encode(b)) == Some(b)
  {
    var s := Encode(b);
    var x, y, z := b[0], b[1], b[2];
    assert s == EncodeGroup(x, y, z) + Encode(b[3..]);
    assert s[..4] == EncodeGroup(x, y, z) && s[4..] == Encode(b[3..]);
    GroupQuantumRoundTrip(x, y, z);
    DecodeQuantaCons(s, [x, y, z], b[3..]);
    SplitThree(b);
  }

  lemma SplitThree(b: seq<uint8>)
    requires |b| >= 3
    ensures b == [b[0], b[1], b[2]] + b[3..]
  {
  }

  /** A full quantum followed by decodable quanta. */
  lemma DecodeQuantaCons(s: string, g: seq<uint8>, rest: seq<uint8>)
    requires |s| >= 4 && DecodeQuantum(s[..4]) == Some(g) && |g| == 3
    requires DecodeQuanta(s[4..]) == Some(rest)
    ensures DecodeQuanta(s) == Some(g + rest)
  {
  }

  lemma StripLineBreaksNone(s: string)
    requires forall i :: 0 <= i < |s| ==> !IsLineBreak(s[i])
    ensures StripLineBreaks(s) == s
    decreases |s|
  {
    if |s| > 0 {
      StripLineBreaksNone(s[1..]);
    }
  }

  /** Removing line breaks works piecewise: the kept characters of a
      concatenation are those of each part, in order. */
  lemma {:induction false} StripLineBreaksAppend(a: string, b: string)
    ensures StripLineBreaks(a + b) == StripLineBreaks(a) + StripLineBreaks(b)
    decreases |a|
  {
    if |a| == 0 {
      assert a + b == b;
    } else {
      assert (a + b)[0] == a[0] && (a + b)[1..] == a[1..] + b;
      StripLineBreaksAppend(a[1..], b);
    }
  }

  /** A single character is dropped exactly when it is CR or LF, and
      otherwise kept. */
  lemma StripLineBreaksChar(c: char)
    ensures IsLineBreak(c) ==> StripLineBreaks([c]) == []
    ensures !IsLineBreak(c) ==> StripLineBreaks([c]) == [c]
  {
    assert [c][1..] == [];
  }

  /** What Go's encoder writes, Go's decoder reads back unchanged. */
  lemma StdDecodeEncode(b: seq<uint8>)
    ensures StdDecode(Encode(b)) == Some(b)
  {
    StripLineBreaksNone(Encode(b));
    DecodeEncode(b);
  }

  /** Encoding undoes decoding exactly on the strings without stray bits. */
  lemma {:induction false} EncodeDecode(s: string, b: seq<uint8>)
    requires DecodeQuanta(s) == Some(b)
    ensures Encode(b) == s <==> NoStrayBits(s)
    decreases |s|
  {
    if |s| == 0 {
      return;
    }
    var g := DecodeQuantum(s[..4]).value;
    if |g| == 3 {
      var rest := DecodeQuanta(s[4..]).value;
      EncodeDecode(s[4..], rest);
      EncodeDecodeFull(s, b, g, rest);
    } else {
      assert s == s[..4];
      EncodeDecodeFinal(s, b);
    }
  }

  /** A leading complete quantum is re-encoded as itself. */
  lemma EncodeDecodeFull(s: string, b: seq<uint8>, g: seq<uint8>, rest: seq<uint8>)
    requires |s| >= 4 && DecodeQuantum(s[..4]) == Some(g) && |g| == 3
    requires DecodeQuanta(s[4..]) == Some(rest) && b == g + rest
    requires Encode(rest) == s[4..] <==> NoStrayBits(s[4..])
    ensures Encode(b) == s <==> NoStrayBits(s)
  {
    QuantumRoundTrip(s[..4], g);
    var t := s[4..];
    assert s == s[..4] + t;
    if |rest| == 0 {
      assert Encode(b) == EncodeGroup(g[0], g[1], g[2]);
    } else {
      assert |b| >= 3 && b[3..] == rest && b[..3] == g;
      assert Encode(b) == s[..4] + Encode(rest);
      NoStrayBitsSuffix(s);
      if Encode(b) == s {
        assert Encode(rest) == (s[..4] + Encode(rest))[4..];
      }
    }
  }

  lemma QuantumRoundTrip(q: string, g: seq<uint8>)
    requires |q| == 4 && DecodeQuantum(q) == Some(g) && |g| == 3
    ensures EncodeGroup(g[0], g[1], g[2]) == q
  {
    SextetRoundTrip(ValueOf(q[0]).value, ValueOf(q[1]).value, ValueOf(q[2]).value, ValueOf(q[3]).value);
  }

  lemma NoStrayBitsSuffix(s: string)
    requires |s| >= 8
    ensures NoStrayBits(s) <==> NoStrayBits(s[4..])
  {
    var t := s[4..];
    assert t[|t| - 2] == s[|s| - 2] && t[|t| - 1] == s[|s| - 1] && t[|t| - 3] == s[|s| - 3];
  }

  /** A padded final quantum is re-encoded as itself exactly when its
      discarded bits are zero. */
  lemma EncodeDecodeFinal(s: string, b: seq<uint8>)
    requires |s| == 4 && DecodeQuantum(s) == Some(b) && |b| < 3
    ensures Encode(b) == s <==> NoStrayBits(s)
  {
    if ValueOf(s[2]).Some? {
      EncodeDecodeTwo(s, b);
    } else {
      EncodeDecodeOne(s, b);
    }
  }

  lemma EncodeDecodeTwo(s: string, b: seq<uint8>)
    requires |s| == 4 && DecodeQuantum(s) == Some(b) && ValueOf(s[2]).Some? && |b| < 3
    ensures Encode(b) == s <==> NoStrayBits(s)
  {
    var a, bb, c := ValueOf(s[0]).value, ValueOf(s[1]).value, ValueOf(s[2]).value;
    assert s[3] == Pad && b == DecodeGroup(a, bb, c, 0)[..2] by {
      assert ValueOf(s[3]).None?;
    }
    ReencodeTwoOctets(a, bb, c, b);
    ReencodeTwo(s, a, bb, c);
  }

  lemma ReencodeTwoOctets(a: sextet, bb: sextet, c: sextet, b: seq<uint8>)
    requires b == DecodeGroup(a, bb, c, 0)[..2]
    ensures Encode(b) == [CharOf(a), CharOf(bb), CharOf(c - c % 4), Pad]
  {
    var x: uint8, y: uint8 := a as int * 4 + bb / 16, bb as int % 16 * 16 + c / 4;
    assert b == [x, y];
    assert x / 4 == a && x % 4 * 16 + y / 16 == bb && y % 16 * 4 == c - c % 4 by {
      SextetRoundTrip(a, bb, c, 0);
    }
  }

  lemma ReencodeTwo(s: string, a: sextet, bb: sextet, c: sextet)
    requires |s| == 4 && s[3] == Pad
    requires ValueOf(s[0]) == Some(a) && ValueOf(s[1]) == Some(bb) && ValueOf(s[2]) == Some(c)
    ensures [CharOf(a), CharOf(bb), CharOf(c - c % 4), Pad] == s <==> NoStrayBits(s)
  {
    assert s[2] != Pad;
    if c % 4 != 0 {
      ValueOfCharOf(c - c % 4);
      assert CharOf(c - c % 4) != s[2];
    } else {
      assert s == [CharOf(a), CharOf(bb), CharOf(c), Pad];
    }
  }

  lemma EncodeDecodeOne(s: string, b: seq<uint8>)
    requires |s| == 4 && DecodeQuantum(s) == Some(b) && ValueOf(s[2]).None?
    ensures Encode(b) == s <==> NoStrayBits(s)
  {
    var a, bb := ValueOf(s[0]).value, ValueOf(s[1]).value;
    var g := DecodeGroup(a, bb, 0, 0);
    assert s[2] == Pad && s[3] == Pad && b == g[..1];
    SextetRoundTrip(a, bb, 0, 0);
    var b': sextet := g[0] % 4 * 16;
    assert Encode(b) == [CharOf(a), CharOf(b'), Pad, Pad];
    assert b' == bb - bb % 16;
    assert NoStrayBits(s) <==> bb % 16 == 0;
    if bb % 16 != 0 {
      ValueOfCharOf(b');
      assert Encode(b)[1] != s[1];
    }
  }

  /** Go's default decoder is not injective: "QR==" carries a stray bit that
      decoding drops, so re-encoding does not give back the input. */
  lemma StrayBitsAccepted()
    ensures StdDecode("QR==") == Some([65])
    ensures Encode([65]) == "QQ==" && "QQ==" != "QR=="
  {
    StripLineBreaksNone("QR==");
    assert ValueOf('Q') == Some(16) && ValueOf('R') == Some(17);
    assert DecodeQuantum("QR==") == Some(DecodeGroup(16, 17, 0, 0)[..1]);
    assert DecodeGroup(16, 17, 0, 0)[..1] == [65];
  }
}

=== FILE: buckets.dfy ===
/** The bookkeeping both templates share: each input message ends in exactly
    one outcome, and the outcomes are sorted, in input order, into the list of
    messages passed on and the list of failed messages. */
module Buckets {

  /** What became of one input message: passed on, failed (bound for the
      dead-letter station), filtered out, or the end of the whole invocation
      (a Go panic). */
  datatype Outcome<M, F> = Emit(msg: M) | Fail(failure: F) | Drop | Abort

  datatype Sorted<M, F> = Sorted(messages: seq<M>, failed: seq<F>)

  /** The two output lists, each in input order. */
  function Sort<M, F>(t: seq<Outcome<M, F>>): Sorted<M, F>
    decreases |t|
  {
    if |t| == 0 then Sorted([], [])
    else
      var rest := Sort(t[1..]);
      match t[0]
      case Emit(m) => Sorted([m] + rest.messages, rest.failed)
      case Fail(f) => Sorted(rest.messages, [f] + rest.failed)
      case _ => rest
  }

  function Dropped<M, F>(t: seq<Outcome<M, F>>): nat
    decreases |t|
  {
    if |t| == 0 then 0 else (if t[0].Drop? then 1 else 0) + Dropped(t[1..])
  }

  predicate Aborts<M, F>(t: seq<Outcome<M, F>>) {
    exists i :: 0 <= i < |t| && t[i].Abort?
  }

  function Concat<M, F>(x: Sorted<M, F>, y: Sorted<M, F>): Sorted<M, F> {
    Sorted(x.messages + y.messages, x.failed + y.failed)
  }

  /** Every outcome is accounted for: an entry in one list, a filtered
      message, or an abort. */
  lemma {:induction false} SortAccounts<M, F>(t: seq<Outcome<M, F>>)
    requires !Aborts(t)
    ensures |Sort(t).messages| + |Sort(t).failed| + Dropped(t) == |t|
    decreases |t|
  {
    if |t| > 0 {
      assert !Aborts(t[1..]);
      SortAccounts(t[1..]);
    }
  }

  /** Sorting is compatible with splitting the input: the outputs for a
      concatenation are the concatenated outputs, so neither list reorders
      messages. */
  lemma {:induction false} SortAppend<M, F>(a: seq<Outcome<M, F>>, b: seq<Outcome<M, F>>)
    ensures Sort(a + b) == Concat(Sort(a), Sort(b))
    decreases |a|
  {
    if |a| > 0 {
      assert (a + b)[1..] == a[1..] + b;
      SortAppend(a[1..], b);
    } else {
      assert a + b == b;
    }
  }

  lemma {:induction false} DroppedAppend<M, F>(a: seq<Outcome<M, F>>, b: seq<Outcome<M, F>>)
    ensures Dropped(a + b) == Dropped(a) + Dropped(b)
    decreases |a|
  {
    if |a| > 0 {
      assert (a + b)[1..] == a[1..] + b;
      DroppedAppend(a[1..], b);
    } else {
      assert a + b == b;
    }
  }

  predicate Increasing(ix: seq<nat>) {
    forall i, j :: 0 <= i < j < |ix| ==> ix[i] < ix[j]
  }

  function Shift(ix: seq<nat>): seq<nat> {
    seq(|ix|, k requires 0 <= k < |ix| => ix[k] + 1)
  }

  lemma ShiftIncreasing(ix: seq<nat>)
    requires Increasing(ix)
    ensures Increasing(Shift(ix)) && Increasing([0] + Shift(ix))
  {
    var r := [0] + Shift(ix);
    forall i, j | 0 <= i < j < |r|
      ensures r[i] < r[j]
    {
      if i > 0 {
        assert r[i] == ix[i - 1] + 1 && r[j] == ix[j - 1] + 1;
      }
    }
  }

  lemma InShift(ix: seq<nat>, j: nat)
    requires j in ix
    ensures j + 1 in Shift(ix) && j + 1 in [0] + Shift(ix)
  {
    var k :| 0 <= k < |ix| && ix[k] == j;
    assert Shift(ix)[k] == j + 1;
    assert ([0] + Shift(ix))[k + 1] == j + 1;
  }

  /** The input positions of the messages passed on, in order. */
  function EmitPositions<M, F>(t: seq<Outcome<M, F>>): seq<nat>
    decreases |t|
  {
    if |t| == 0 then []
    else if t[0].Emit? then [0] + Shift(EmitPositions(t[1..]))
    else Shift(EmitPositions(t[1..]))
  }

  /** The input positions of the failed messages, in order. */
  function FailPositions<M, F>(t: seq<Outcome<M, F>>): seq<nat>
    decreases |t|
  {
    if |t| == 0 then []
    else if t[0].Fail? then [0] + Shift(FailPositions(t[1..]))
    else Shift(FailPositions(t[1..]))
  }

  /** `ix` lists the positions of `t` holding emitted messages, in increasing order
      and without omission, and `xs` holds what those outcomes carry. */
  ghost predicate ListsEmits<M, F>(t: seq<Outcome<M, F>>, ix: seq<nat>, xs: seq<M>) {
    && |ix| == |xs| && Increasing(ix)
    && (forall k :: 0 <= k < |ix| ==> ix[k] < |t| && t[ix[k]] == Emit(xs[k]))
    && (forall i :: 0 <= i < |t| && t[i].Emit? ==> i in ix)
  }

  lemma ListsEmitsStep<M, F>(t: seq<Outcome<M, F>>)
    requires |t| > 0 && ListsEmits(t[1..], EmitPositions(t[1..]), Sort(t[1..]).messages)
    ensures ListsEmits(t, EmitPositions(t), Sort(t).messages)
  {
    ShiftIncreasing(EmitPositions(t[1..]));
    EmitPositionsEntries(t);
    EmitPositionsComplete(t);
  }

  lemma EmitPositionsEntries<M, F>(t: seq<Outcome<M, F>>)
    requires |t| > 0
    requires var inner, xs := EmitPositions(t[1..]), Sort(t[1..]).messages;
      |inner| == |xs| && forall k :: 0 <= k < |inner| ==> inner[k] < |t[1..]| && t[1..][inner[k]] == Emit(xs[k])
    ensures var ix, ys := EmitPositions(t), Sort(t).messages;
      |ix| == |ys| && forall k :: 0 <= k < |ix| ==> ix[k] < |t| && t[ix[k]] == Emit(ys[k])
  {
    var inner, xs := EmitPositions(t[1..]), Sort(t[1..]).messages;
    if t[0].Emit? {
      EmitEntriesShift(t, inner, xs, [0], [t[0].msg]);
    } else {
      EmitEntriesShift(t, inner, xs, [], []);
    }
  }

  lemma EmitEntriesShift<M, F>(t: seq<Outcome<M, F>>, inner: seq<nat>, xs: seq<M>, head: seq<nat>, hx: seq<M>)
    requires |t| > 0
    requires |inner| == |xs| && forall k :: 0 <= k < |inner| ==> inner[k] < |t[1..]| && t[1..][inner[k]] == Emit(xs[k])
    requires (head == [] && hx == []) || (head == [0] && t[0].Emit? && hx == [t[0].msg])
    ensures var ix, ys := head + Shift(inner), hx + xs;
      |ix| == |ys| && forall k :: 0 <= k < |ix| ==> ix[k] < |t| && t[ix[k]] == Emit(ys[k])
  {
    var ix, ys := head + Shift(inner), hx + xs;
    forall k | |head| <= k < |ix|
      ensures ix[k] < |t| && t[ix[k]] == Emit(ys[k])
    {
      var j := k - |head|;
      assert ix[k] == inner[j] + 1 && ys[k] == xs[j];
      assert t[1..][inner[j]] == t[inner[j] + 1];
    }
  }

  lemma EmitPositionsComplete<M, F>(t: seq<Outcome<M, F>>)
    requires |t| > 0
    requires forall i :: 0 <= i < |t[1..]| && t[1..][i].Emit? ==> i in EmitPositions(t[1..])
    ensures forall i :: 0 <= i < |t| && t[i].Emit? ==> i in EmitPositions(t)
  {
    var inner := EmitPositions(t[1..]);
    var ix := EmitPositions(t);
    assert ix == (if t[0].Emit? then [0] else []) + Shift(inner);
    forall i | 0 <= i < |t| && t[i].Emit?
      ensures i in ix
    {
      if i > 0 {
        assert t[1..][i - 1].Emit?;
        InShift(inner, i - 1);
      }
    }
  }

  /** The message list is the emitted messages as an order-preserving
      subsequence of the input: its k-th entry is the message emitted at the
      k-th listed position, positions increase, and no emitted message is
      missing. */
  lemma {:induction false} EmitPositionsExact<M, F>(t: seq<Outcome<M, F>>)
    ensures ListsEmits(t, EmitPositions(t), Sort(t).messages)
    decreases |t|
  {
    if |t| > 0 {
      EmitPositionsExact(t[1..]);
      ListsEmitsStep(t);
    }
  }

  /** `ix` lists the positions of `t` holding failures, in increasing order
      and without omission, and `xs` holds what those outcomes carry. */
  ghost predicate ListsFails<M, F>(t: seq<Outcome<M, F>>, ix: seq<nat>, xs: seq<F>) {
    && |ix| == |xs| && Increasing(ix)
    && (forall k :: 0 <= k < |ix| ==> ix[k] < |t| && t[ix[k]] == Fail(xs[k]))
    && (forall i :: 0 <= i < |t| && t[i].Fail? ==> i in ix)
  }

  lemma ListsFailsStep<M, F>(t: seq<Outcome<M, F>>)
    requires |t| > 0 && ListsFails(t[1..], FailPositions(t[1..]), Sort(t[1..]).failed)
    ensures ListsFails(t, FailPositions(t), Sort(t).failed)
  {
    ShiftIncreasing(FailPositions(t[1..]));
    FailPositionsEntries(t);
    FailPositionsComplete(t);
  }

  lemma FailPositionsEntries<M, F>(t: seq<Outcome<M, F>>)
    requires |t| > 0
    requires var inner, xs := FailPositions(t[1..]), Sort(t[1..]).failed;
      |inner| == |xs| && forall k :: 0 <= k < |inner| ==> inner[k] < |t[1..]| && t[1..][inner[k]] == Fail(xs[k])
    ensures var ix, ys := FailPositions(t), Sort(t).failed;
      |ix| == |ys| && forall k :: 0 <= k < |ix| ==> ix[k] < |t| && t[ix[k]] == Fail(ys[k])
  {
    var inner, xs := FailPositions(t[1..]), Sort(t[1..]).failed;
    if t[0].Fail? {
      FailEntriesShift(t, inner, xs, [0], [t[0].failure]);
    } else {
      FailEntriesShift(t, inner, xs, [], []);
    }
  }

  lemma FailEntriesShift<M, F>(t: seq<Outcome<M, F>>, inner: seq<nat>, xs: seq<F>, head: seq<nat>, hx: seq<F>)
    requires |t| > 0
    requires |inner| == |xs| && forall k :: 0 <= k < |inner| ==> inner[k] < |t[1..]| && t[1..][inner[k]] == Fail(xs[k])
    requires (head == [] && hx == []) || (head == [0] && t[0].Fail? && hx == [t[0].failure])
    ensures var ix, ys := head + Shift(inner), hx + xs;
      |ix| == |ys| && forall k :: 0 <= k < |ix| ==> ix[k] < |t| && t[ix[k]] == Fail(ys[k])
  {
    var ix, ys := head + Shift(inner), hx + xs;
    forall k | |head| <= k < |ix|
      ensures ix[k] < |t| && t[ix[k]] == Fail(ys[k])
    {
      var j := k - |head|;
      assert ix[k] == inner[j] + 1 && ys[k] == xs[j];
      assert t[1..][inner[j]] == t[inner[j] + 1];
    }
  }

  lemma FailPositionsComplete<M, F>(t: seq<Outcome<M, F>>)
    requires |t| > 0
    requires forall i :: 0 <= i < |t[1..]| && t[1..][i].Fail? ==> i in FailPositions(t[1..])
    ensures forall i :: 0 <= i < |t| && t[i].Fail? ==> i in FailPositions(t)
  {
    var inner := FailPositions(t[1..]);
    var ix := FailPositions(t);
    assert ix == (if t[0].Fail? then [0] else []) + Shift(inner);
    forall i | 0 <= i < |t| && t[i].Fail?
      ensures i in ix
    {
      if i > 0 {
        assert t[1..][i - 1].Fail?;
        InShift(inner, i - 1);
      }
    }
  }

  /** The failed list is the failures as an order-preserving subsequence of
      the input, in the same sense. */
  lemma {:induction false} FailPositionsExact<M, F>(t: seq<Outcome<M, F>>)
    ensures ListsFails(t, FailPositions(t), Sort(t).failed)
    decreases |t|
  {
    if |t| > 0 {
      FailPositionsExact(t[1..]);
      ListsFailsStep(t);
    }
  }

  /** An invocation aborts on a concatenation exactly when it aborts on one
      of the parts. */
  lemma AbortsAppend<M, F>(a: seq<Outcome<M, F>>, b: seq<Outcome<M, F>>)
    ensures Aborts(a + b) <==> Aborts(a) || Aborts(b)
  {
    if Aborts(a) {
      var i :| 0 <= i < |a| && a[i].Abort?;
      assert (a + b)[i].Abort?;
    }
    if Aborts(b) {
      var i :| 0 <= i < |b| && b[i].Abort?;
      assert (a + b)[|a| + i].Abort?;
    }
    if Aborts(a + b) {
      var i :| 0 <= i < |a + b| && (a + b)[i].Abort?;
      if i < |a| { assert a[i].Abort?; } else { assert b[i - |a|].Abort?; }
    }
  }

  /** When every outcome is a passed-on message, the message list is exactly
      those messages and nothing fails. */
  lemma {:induction false} SortAllEmitted<M, F>(t: seq<Outcome<M, F>>, xs: seq<M>)
    requires |t| == |xs| && forall i :: 0 <= i < |t| ==> t[i] == Emit(xs[i])
    ensures Sort(t) == Sorted(xs, []) && !Aborts(t)
    decreases |t|
  {
    if |t| > 0 {
      SortAllEmitted(t[1..], xs[1..]);
      assert xs == [xs[0]] + xs[1..];
    }
  }

  /** Sorting one more outcome in front of the rest. */
  lemma SortCons<M, F>(o: Outcome<M, F>, rest: seq<Outcome<M, F>>)
    ensures Aborts([o] + rest) <==> o.Abort? || Aborts(rest)
    ensures o.Emit? ==> Sort([o] + rest) == Sorted([o.msg] + Sort(rest).messages, Sort(rest).failed)
    ensures o.Fail? ==> Sort([o] + rest) == Sorted(Sort(rest).messages, [o.failure] + Sort(rest).failed)
    ensures o.Drop? ==> Sort([o] + rest) == Sort(rest)
  {
    AbortsAppend([o], rest);
    assert Aborts([o]) <==> o.Abort? by {
      if o.Abort? { assert [o][0].Abort?; }
    }
    assert ([o] + rest)[1..] == rest;
  }
}

=== FILE: common.dfy ===
/** Types the two templates share. */
module Common {
  import Base64

  /** Go's `[]byte` and Python's `bytes`. */
  type Bytes = seq<Base64.uint8>

  /** A message's headers and the function's inputs: a `map[string]string`
      in Go, a `dict` of strings in Python. */
  type Headers = map<string, string>
}

=== FILE: memphis_go.dfy ===
/** The Go template: `CreateFunction` and the `LambdaHandler` it registers.

    One invocation receives a `MemphisEvent` (the function's inputs and a batch
    of messages whose payloads are base64 text) and answers with a
    `MemphisOutput` (the messages to pass on and the messages bound for the
    dead-letter station), or with an error and no output at all.

    Go's dynamic parts become data: the handler's `any` payload is the tagged
    union `Any` (nil, a `[]byte`, or some other value of type `V`), the shared
    user object is a state of type `S` threaded from message to message, and the
    standard-library calls whose internals are not modelled (`json.Marshal` of a
    user value, `json.Unmarshal` into the user object, the text of a base64
    decoding error) are fields of a `GoLib` value. */
module MemphisGo {
  import opened Wrappers
  import Base64
  import opened Buckets
  import opened Common

  datatype MemphisMsg = MemphisMsg(headers: Headers, payload: string)

  datatype MemphisMsgWithError = MemphisMsgWithError(headers: Headers, payload: string, error: string)

  datatype MemphisEvent = MemphisEvent(inputs: Headers, messages: seq<MemphisMsg>)

  datatype MemphisOutput = MemphisOutput(messages: seq<MemphisMsg>, failedMessages: seq<MemphisMsgWithError>)

  /** `PayloadTypes` is a Go `int`; these are its two named values. */
  const BYTES: int := 1
  const JSON: int := 2

  /** A value of Go's `any` as the handler may return it. */
  datatype Any<V> = Nil | ByteSlice(bytes: Bytes) | Value(value: V)

  /** What the handler is given as its payload: the decoded bytes, or the
      shared user object once the bytes have been unmarshalled into it. */
  datatype HandlerInput<S> = RawPayload(bytes: Bytes) | UserObject(value: S)

  /** What one handler call gives back: the payload, the headers (`None` for a
      nil map), the error (`None` for nil), and the shared user object as the
      call leaves it (a pointer the handler may write through). */
  datatype Reply<S, V> = Reply(payload: Any<V>, headers: Option<Headers>, err: Option<string>, userObject: S)

  /** `HandlerType`: payload, message headers, function inputs. */
  type HandlerType<!S, V> = (HandlerInput<S>, Headers, Headers) -> Reply<S, V>

  datatype PayloadOptions<!S, V> = PayloadOptions(handler: HandlerType<S, V>, userObject: Option<S>, payloadType: int)

  /** `PayloadOption`: a possibly nil function that edits the options or
      reports an error. */
  type PayloadOption<!S, !V> = Option<PayloadOptions<S, V> -> Result<PayloadOptions<S, V>, string>>

  /** The library calls the template makes but whose workings are not
      modelled: the text of a base64 decoding error for a given payload,
      `json.Unmarshal` of the decoded bytes into the user object (its error is
      ignored by the template, so only the resulting object matters), and
      `json.Marshal` of a value that is neither nil nor a `[]byte`. */
  datatype GoLib<!S, !V> = GoLib(decodeError: string -> string, unmarshal: (Bytes, S) -> S, marshal: V -> Result<Bytes, string>)

  /** Why an invocation returns no output: an option reported an error, or
      the conversion of a non-`[]byte` payload to `[]byte` panicked. */
  datatype InvocationError = OptionFailed(error: string) | TypeAssertionPanic

  const DecodeErrorPrefix: string := "couldn't decode message: "

  /** `json.Marshal(nil)`: the four bytes of `null`. */
  const NullJson: Bytes := [110, 117, 108, 108]

  /** The options every invocation starts from. */
  function Defaults<S, V>(handler: HandlerType<S, V>): PayloadOptions<S, V> {
    PayloadOptions(handler, None, BYTES)
  }

  /** `PayloadInfo(schema, schemaType)`; a nil schema is `None`. */
  function PayloadInfo<S, V>(schema: Option<S>, schemaType: int): PayloadOption<S, V> {
    Some((p: PayloadOptions<S, V>) => Success(p.(userObject := schema, payloadType := schemaType)))
  }

  /** The option loop at the head of every invocation: nil options are
      skipped, and the first error ends the loop. */
  function ApplyOptions<S, V>(params: PayloadOptions<S, V>, options: seq<PayloadOption<S, V>>): Result<PayloadOptions<S, V>, string>
    decreases |options|
  {
    if |options| == 0 then Success(params)
    else match options[0]
      case None => ApplyOptions(params, options[1..])
      case Some(option) =>
        match option(params)
        case Failure(e) => Failure(e)
        case Success(next) => ApplyOptions(next, options[1..])
  }

  /** What the handler receives for decoded bytes `payload`: with a user
      object, the object after unmarshalling `payload` into it; otherwise the
      bytes themselves. */
  function HandlerInputFor<S, V>(lib: GoLib<S, V>, payload: Bytes, obj: Option<S>): (r: HandlerInput<S>)
    ensures r.RawPayload? <==> obj.None?
    ensures r.RawPayload? ==> r.bytes == payload
  {
    if obj.Some? then UserObject(lib.unmarshal(payload, obj.value)) else RawPayload(payload)
  }

  /** A failed entry for input message `msg`. */
  function Echo(msg: MemphisMsg, error: string): MemphisMsgWithError {
    MemphisMsgWithError(msg.headers, msg.payload, error)
  }

  /** Whether the payload type asks for a non-`[]byte` payload to be marshalled. */
  predicate Marshals(payloadType: int) {
    payloadType == JSON || payloadType == BYTES
  }

  /** The payload and error after the marshalling step: a nil-error reply whose
      payload is not a `[]byte` is marshalled when the payload type asks for
      it, and a marshal error takes the place of the nil error. */
  function Marshalled<S, V>(lib: GoLib<S, V>, payloadType: int, reply: Reply<S, V>): (r: (Any<V>, Option<string>))
    ensures reply.err.Some? ==> r.1 == reply.err
    ensures r.0.Value? ==> r.0 == reply.payload && (reply.err.Some? || !Marshals(payloadType))
  {
    if reply.err.Some? || reply.payload.ByteSlice? || !Marshals(payloadType) then (reply.payload, reply.err)
    else match reply.payload
      case Value(v) =>
        (match lib.marshal(v)
         case Success(b) => (ByteSlice(b), None)
         case Failure(e) => (ByteSlice([]), Some(e)))
      case _ => (ByteSlice(NullJson), None)
  }

  /** Which bucket one handler reply puts input message `msg` in. */
  function Settle<S, V>(lib: GoLib<S, V>, payloadType: int, msg: MemphisMsg, reply: Reply<S, V>): Outcome<MemphisMsg, MemphisMsgWithError> {
    var (payload, err) := Marshalled(lib, payloadType, reply);
    if err.Some? then Fail(Echo(msg, err.value))
    else if payload.Nil? || reply.headers.None? then Drop
    else if payload.Value? then Abort
    else Emit(MemphisMsg(reply.headers.value, Base64.Encode(payload.bytes)))
  }

  /** One message's outcome, and the user object as it leaves the message. */
  datatype Handled<S> = Handled(outcome: Outcome<MemphisMsg, MemphisMsgWithError>, state: Option<S>)

  /** One pass of the message loop. */
  function Step<S, V>(params: PayloadOptions<S, V>, lib: GoLib<S, V>, inputs: Headers, msg: MemphisMsg, obj: Option<S>): (r: Handled<S>)
    ensures r.state.Some? <==> obj.Some?
  {
    match Base64.StdDecode(msg.payload)
    case None => Handled(Fail(Echo(msg, DecodeErrorPrefix + lib.decodeError(msg.payload))), obj)
    case Some(payload) =>
      var reply := params.handler(HandlerInputFor(lib, payload, obj), msg.headers, inputs);
      Handled(Settle(lib, params.payloadType, msg, reply), if obj.Some? then Some(reply.userObject) else None)
  }

  /** The message loop, appending to the output as it goes; an abort ends the
      invocation with no output. */
  function Loop<S, V>(params: PayloadOptions<S, V>, lib: GoLib<S, V>, inputs: Headers, messages: seq<MemphisMsg>, obj: Option<S>, acc: MemphisOutput): Result<MemphisOutput, InvocationError>
    decreases |messages|
  {
    if |messages| == 0 then Success(acc)
    else
      var h := Step(params, lib, inputs, messages[0], obj);
      if h.outcome.Abort? then Failure(TypeAssertionPanic)
      else Loop(params, lib, inputs, messages[1..], h.state, Accumulate(acc, h.outcome))
  }

  /** The `append` of one outcome to the output being built. */
  function Accumulate(acc: MemphisOutput, o: Outcome<MemphisMsg, MemphisMsgWithError>): MemphisOutput {
    match o
    case Emit(m) => acc.(messages := acc.messages + [m])
    case Fail(f) => acc.(failedMessages := acc.failedMessages + [f])
    case _ => acc
  }

  /** `LambdaHandler` for the handler and options given to `CreateFunction`. */
  function LambdaHandler<S, V>(eventHandler: HandlerType<S, V>, options: seq<PayloadOption<S, V>>, lib: GoLib<S, V>, event: MemphisEvent): (r: Result<MemphisOutput, InvocationError>)
    ensures ApplyOptions(Defaults(eventHandler), options).Failure? ==>
              r == Failure(OptionFailed(ApplyOptions(Defaults(eventHandler), options).error))
  {
    match ApplyOptions(Defaults(eventHandler), options)
    case Failure(e) => Failure(OptionFailed(e))
    case Success(params) => Loop(params, lib, event.inputs, event.messages, params.userObject, MemphisOutput([], []))
  }

  // ---------------------------------------------------------------------
  // A reference description of the loop: the outcome of each message.

  /** The user object as each message finds it. */
  function States<S, V>(params: PayloadOptions<S, V>, lib: GoLib<S, V>, inputs: Headers, messages: seq<MemphisMsg>, obj: Option<S>): (r: seq<Option<S>>)
    ensures |r| == |messages|
    decreases |messages|
  {
    if |messages| == 0 then []
    else [obj] + States(params, lib, inputs, messages[1..], Step(params, lib, inputs, messages[0], obj).state)
  }

  /** The outcome of each message, in input order. */
  function Outcomes<S, V>(params: PayloadOptions<S, V>, lib: GoLib<S, V>, inputs: Headers, messages: seq<MemphisMsg>, obj: Option<S>): (t: seq<Outcome<MemphisMsg, MemphisMsgWithError>>)
    ensures |t| == |messages|
    decreases |messages|
  {
    if |messages| == 0 then []
    else
      var h := Step(params, lib, inputs, messages[0], obj);
      [h.outcome] + Outcomes(params, lib, inputs, messages[1..], h.state)
  }

  /** The user object after the last message. */
  function FinalState<S, V>(params: PayloadOptions<S, V>, lib: GoLib<S, V>, inputs: Headers, messages: seq<MemphisMsg>, obj: Option<S>): Option<S>
    decreases |messages|
  {
    if |messages| == 0 then obj
    else FinalState(params, lib, inputs, messages[1..], Step(params, lib, inputs, messages[0], obj).state)
  }

  /** The outcomes of a whole event, once the options have been applied. */
  function EventOutcomes<S, V>(eventHandler: HandlerType<S, V>, options: seq<PayloadOption<S, V>>, lib: GoLib<S, V>, event: MemphisEvent): seq<Outcome<MemphisMsg, MemphisMsgWithError>>
    requires ApplyOptions(Defaults(eventHandler), options).Success?
  {
    var params := ApplyOptions(Defaults(eventHandler), options).value;
    Outcomes(params, lib, event.inputs, event.messages, params.userObject)
  }

  /** Message `i`'s outcome is the step taken on it with the object it finds. */
  lemma {:induction false} OutcomesAt<S, V>(params: PayloadOptions<S, V>, lib: GoLib<S, V>, inputs: Headers, messages: seq<MemphisMsg>, obj: Option<S>, i: nat)
    requires i < |messages|
    ensures Outcomes(params, lib, inputs, messages, obj)[i]
         == Step(params, lib, inputs, messages[i], States(params, lib, inputs, messages, obj)[i]).outcome
    decreases i
  {
    if i > 0 {
      var next := Step(params, lib, inputs, messages[0], obj).state;
      OutcomesAt(params, lib, inputs, messages[1..], next, i - 1);
      assert messages[1..][i - 1] == messages[i];
    }
  }

  /** The loop sorts the outcomes into the two lists, appended to what it
      already holds, unless some message aborts the invocation. */
  lemma {:induction false} LoopSortsOutcomes<S, V>(params: PayloadOptions<S, V>, lib: GoLib<S, V>, inputs: Headers, messages: seq<MemphisMsg>, obj: Option<S>, acc: MemphisOutput)
    ensures var t := Outcomes(params, lib, inputs, messages, obj);
      Loop(params, lib, inputs, messages, obj, acc)
        == if Aborts(t) then Failure(TypeAssertionPanic)
           else Success(MemphisOutput(acc.messages + Sort(t).messages, acc.failedMessages + Sort(t).failed))
    decreases |messages|
  {
    if |messages| == 0 {
      assert acc.messages + [] == acc.messages && acc.failedMessages + [] == acc.failedMessages;
    } else {
      var h := Step(params, lib, inputs, messages[0], obj);
      var rest := Outcomes(params, lib, inputs, messages[1..], h.state);
      assert Outcomes(params, lib, inputs, messages, obj) == [h.outcome] + rest;
      SortCons(h.outcome, rest);
      if !h.outcome.Abort? {
        LoopSortsOutcomes(params, lib, inputs, messages[1..], h.state, Accumulate(acc, h.outcome));
        AccumulateSorts(acc, h.outcome, rest);
      }
    }
  }

  /** Appending one outcome and then the sorted rest is appending the sorted
      whole. */
  lemma AccumulateSorts(acc: MemphisOutput, o: Outcome<MemphisMsg, MemphisMsgWithError>, rest: seq<Outcome<MemphisMsg, MemphisMsgWithError>>)
    requires !o.Abort?
    ensures Accumulate(acc, o).messages + Sort(rest).messages == acc.messages + Sort([o] + rest).messages
    ensures Accumulate(acc, o).failedMessages + Sort(rest).failed == acc.failedMessages + Sort([o] + rest).failed
  {
    SortCons(o, rest);
    match o
    case Emit(m) => assert acc.messages + [m] + Sort(rest).messages == acc.messages + ([m] + Sort(rest).messages);
    case Fail(f) => assert acc.failedMessages + [f] + Sort(rest).failed == acc.failedMessages + ([f] + Sort(rest).failed);
    case Drop =>
  }

  /** An invocation whose options succeed answers with the sorted outcomes of
      its messages, or with the panic when some message's payload cannot be
      turned into a `[]byte`. */
  lemma LambdaHandlerSorts<S, V>(eventHandler: HandlerType<S, V>, options: seq<PayloadOption<S, V>>, lib: GoLib<S, V>, event: MemphisEvent)
    requires ApplyOptions(Defaults(eventHandler), options).Success?
    ensures var t := EventOutcomes(eventHandler, options, lib, event);
      LambdaHandler(eventHandler, options, lib, event)
        == if Aborts(t) then Failure(TypeAssertionPanic)
           else Success(MemphisOutput(Sort(t).messages, Sort(t).failed))
  {
    var params := ApplyOptions(Defaults(eventHandler), options).value;
    var t := Outcomes(params, lib, event.inputs, event.messages, params.userObject);
    assert EventOutcomes(eventHandler, options, lib, event) == t;
    LoopSortsOutcomes(params, lib, event.inputs, event.messages, params.userObject, MemphisOutput([], []));
    assert [] + Sort(t).messages == Sort(t).messages && [] + Sort(t).failed == Sort(t).failed;
  }

  /** Each input message contributes at most one entry: passed-on, failed and
      filtered messages add up to the batch. */
  lemma BatchAccounting<S, V>(eventHandler: HandlerType<S, V>, options: seq<PayloadOption<S, V>>, lib: GoLib<S, V>, event: MemphisEvent)
    requires LambdaHandler(eventHandler, options, lib, event).Success?
    ensures ApplyOptions(Defaults(eventHandler), options).Success?
    ensures var out := LambdaHandler(eventHandler, options, lib, event).value;
      |out.messages| + |out.failedMessages| + Dropped(EventOutcomes(eventHandler, options, lib, event)) == |event.messages|
    ensures var out := LambdaHandler(eventHandler, options, lib, event).value;
      |out.messages| + |out.failedMessages| <= |event.messages|
  {
    LambdaHandlerSorts(eventHandler, options, lib, event);
    SortAccounts(EventOutcomes(eventHandler, options, lib, event));
  }

  /** Every failed entry echoes the headers and payload its input message
      arrived with; those messages are listed in input order, and every
      message whose processing failed is listed. */
  lemma FailedEchoInputs<S, V>(eventHandler: HandlerType<S, V>, options: seq<PayloadOption<S, V>>, lib: GoLib<S, V>, event: MemphisEvent)
    requires LambdaHandler(eventHandler, options, lib, event).Success?
    ensures ApplyOptions(Defaults(eventHandler), options).Success?
    ensures var out := LambdaHandler(eventHandler, options, lib, event).value;
      var t := EventOutcomes(eventHandler, options, lib, event);
      var ix := FailPositions(t);
      && |ix| == |out.failedMessages| && Increasing(ix)
      && (forall k :: 0 <= k < |ix| ==>
            && ix[k] < |event.messages|
            && out.failedMessages[k].headers == event.messages[ix[k]].headers
            && out.failedMessages[k].payload == event.messages[ix[k]].payload)
      && (forall i :: 0 <= i < |t| && t[i].Fail? ==> i in ix)
  {
    var params := ApplyOptions(Defaults(eventHandler), options).value;
    var t := EventOutcomes(eventHandler, options, lib, event);
    LambdaHandlerSorts(eventHandler, options, lib, event);
    FailPositionsExact(t);
    var ix := FailPositions(t);
    var out := LambdaHandler(eventHandler, options, lib, event).value;
    forall k | 0 <= k < |ix|
      ensures out.failedMessages[k].headers == event.messages[ix[k]].headers
           && out.failedMessages[k].payload == event.messages[ix[k]].payload
    {
      OutcomesAt(params, lib, event.inputs, event.messages, params.userObject, ix[k]);
      StepFailEchoes(params, lib, event.inputs, event.messages[ix[k]],
                     States(params, lib, event.inputs, event.messages, params.userObject)[ix[k]]);
    }
  }

  /** Every passed-on entry is the outcome of an input message, in input
      order; no passed-on message is missing; and every passed-on payload is
      canonical base64 text of some bytes. */
  lemma EmittedInOrder<S, V>(eventHandler: HandlerType<S, V>, options: seq<PayloadOption<S, V>>, lib: GoLib<S, V>, event: MemphisEvent)
    requires LambdaHandler(eventHandler, options, lib, event).Success?
    ensures ApplyOptions(Defaults(eventHandler), options).Success?
    ensures var out := LambdaHandler(eventHandler, options, lib, event).value;
      var t := EventOutcomes(eventHandler, options, lib, event);
      var ix := EmitPositions(t);
      && |ix| == |out.messages| && Increasing(ix)
      && (forall k :: 0 <= k < |ix| ==> ix[k] < |t| && t[ix[k]] == Emit(out.messages[k]))
      && (forall i :: 0 <= i < |t| && t[i].Emit? ==> i in ix)
      && (forall k :: 0 <= k < |out.messages| ==>
            Base64.StdDecode(out.messages[k].payload).Some?
            && Base64.Encode(Base64.StdDecode(out.messages[k].payload).value) == out.messages[k].payload)
  {
    var params := ApplyOptions(Defaults(eventHandler), options).value;
    var t := EventOutcomes(eventHandler, options, lib, event);
    LambdaHandlerSorts(eventHandler, options, lib, event);
    EmitPositionsExact(t);
    var ix := EmitPositions(t);
    var out := LambdaHandler(eventHandler, options, lib, event).value;
    forall k | 0 <= k < |out.messages|
      ensures Base64.StdDecode(out.messages[k].payload).Some?
           && Base64.Encode(Base64.StdDecode(out.messages[k].payload).value) == out.messages[k].payload
    {
      OutcomesAt(params, lib, event.inputs, event.messages, params.userObject, ix[k]);
      StepEmitsCanonical(params, lib, event.inputs, event.messages[ix[k]],
                         States(params, lib, event.inputs, event.messages, params.userObject)[ix[k]]);
    }
  }

  // ---------------------------------------------------------------------
  // One message.

  /** A failed entry always echoes the input message's headers and payload. */
  lemma StepFailEchoes<S, V>(params: PayloadOptions<S, V>, lib: GoLib<S, V>, inputs: Headers, msg: MemphisMsg, obj: Option<S>)
    ensures var o := Step(params, lib, inputs, msg, obj).outcome;
      o.Fail? ==> o.failure.headers == msg.headers && o.failure.payload == msg.payload
  {
  }

  /** A passed-on payload is the base64 text of some bytes, so it decodes and
      re-encodes to itself. */
  lemma StepEmitsCanonical<S, V>(params: PayloadOptions<S, V>, lib: GoLib<S, V>, inputs: Headers, msg: MemphisMsg, obj: Option<S>)
    ensures var o := Step(params, lib, inputs, msg, obj).outcome;
      o.Emit? ==> Base64.StdDecode(o.msg.payload).Some?
                  && Base64.Encode(Base64.StdDecode(o.msg.payload).value) == o.msg.payload
  {
    var o := Step(params, lib, inputs, msg, obj).outcome;
    if o.Emit? {
      var b :| o.msg.payload == Base64.Encode(b);
      Base64.StdDecodeEncode(b);
    }
  }

  /** A payload that is not valid base64 fails with the decoding error: the
      entry echoes the message, its error starts with the fixed prefix, the
      user object is untouched, and the handler plays no part. */
  lemma UndecodableFails<S, V>(params: PayloadOptions<S, V>, lib: GoLib<S, V>, inputs: Headers, msg: MemphisMsg, obj: Option<S>, other: HandlerType<S, V>)
    requires Base64.StdDecode(msg.payload).None?
    ensures var r := Step(params, lib, inputs, msg, obj);
      && r.state == obj
      && r.outcome.Fail?
      && r.outcome.failure.headers == msg.headers
      && r.outcome.failure.payload == msg.payload
      && r.outcome.failure.error == DecodeErrorPrefix + lib.decodeError(msg.payload)
      && r.outcome.failure.error[..|DecodeErrorPrefix|] == DecodeErrorPrefix
    ensures Step(params.(handler := other), lib, inputs, msg, obj) == Step(params, lib, inputs, msg, obj)
  {
  }

  /** The handler's reply for a message whose payload decodes to `b`. */
  function ReplyTo<S, V>(params: PayloadOptions<S, V>, lib: GoLib<S, V>, inputs: Headers, msg: MemphisMsg, obj: Option<S>, b: Bytes): Reply<S, V> {
    params.handler(HandlerInputFor(lib, b, obj), msg.headers, inputs)
  }

  /** For a decodable message, the bucket is decided by the reply alone:
      it fails exactly when the handler reports an error or marshalling the
      payload fails; the invocation aborts exactly when a non-nil-error reply
      carries a payload that is not `[]byte`, is not marshalled, and comes
      with headers; and the message is passed on exactly when there is no
      error, there are headers, and the payload is a `[]byte` or is marshalled
      without error. Whatever remains is filtered out. */
  lemma ReplyDecidesBucket<S, V>(params: PayloadOptions<S, V>, lib: GoLib<S, V>, inputs: Headers, msg: MemphisMsg, obj: Option<S>, b: Bytes)
    requires Base64.StdDecode(msg.payload) == Some(b)
    ensures var reply, o := ReplyTo(params, lib, inputs, msg, obj, b), Step(params, lib, inputs, msg, obj).outcome;
      var marshalled := reply.err.None? && !reply.payload.ByteSlice? && Marshals(params.payloadType);
      && (o.Fail? <==> reply.err.Some? || (marshalled && reply.payload.Value? && lib.marshal(reply.payload.value).Failure?))
      && (o.Abort? <==> reply.err.None? && reply.payload.Value? && !Marshals(params.payloadType) && reply.headers.Some?)
      && (o.Emit? <==> reply.err.None? && reply.headers.Some?
                       && (reply.payload.ByteSlice? || (marshalled && (reply.payload.Nil? || lib.marshal(reply.payload.value).Success?))))
  {
  }

  /** A handler error fails the message with that error, whatever payload
      and headers came with it; the entry echoes the original message. */
  lemma HandlerErrorFails<S, V>(params: PayloadOptions<S, V>, lib: GoLib<S, V>, inputs: Headers, msg: MemphisMsg, obj: Option<S>, b: Bytes)
    requires Base64.StdDecode(msg.payload) == Some(b)
    requires ReplyTo(params, lib, inputs, msg, obj, b).err.Some?
    ensures Step(params, lib, inputs, msg, obj).outcome
         == Fail(MemphisMsgWithError(msg.headers, msg.payload, ReplyTo(params, lib, inputs, msg, obj, b).err.value))
  {
  }

  /** A marshal error fails the message with that error. */
  lemma MarshalErrorFails<S, V>(params: PayloadOptions<S, V>, lib: GoLib<S, V>, inputs: Headers, msg: MemphisMsg, obj: Option<S>, b: Bytes, v: V, e: string)
    requires Base64.StdDecode(msg.payload) == Some(b)
    requires var reply := ReplyTo(params, lib, inputs, msg, obj, b);
      reply.err.None? && reply.payload == Value(v) && Marshals(params.payloadType)
    requires lib.marshal(v) == Failure(e)
    ensures Step(params, lib, inputs, msg, obj).outcome == Fail(MemphisMsgWithError(msg.headers, msg.payload, e))
  {
  }

  /** A `[]byte` payload with headers is passed on as the base64 text of
      those bytes with the returned headers, whatever the payload type. */
  lemma ByteSlicePassedOn<S, V>(params: PayloadOptions<S, V>, lib: GoLib<S, V>, inputs: Headers, msg: MemphisMsg, obj: Option<S>, b: Bytes, out: Bytes, h: Headers)
    requires Base64.StdDecode(msg.payload) == Some(b)
    requires var reply := ReplyTo(params, lib, inputs, msg, obj, b);
      reply.err.None? && reply.payload == ByteSlice(out) && reply.headers == Some(h)
    ensures var o := Step(params, lib, inputs, msg, obj).outcome;
      o.Emit? && o.msg.headers == h && o.msg.payload == Base64.Encode(out)
      && Base64.StdDecode(o.msg.payload) == Some(out)
  {
    Base64.StdDecodeEncode(out);
  }

  /** Any other value with headers is passed on as the base64 text of its
      JSON encoding, when the payload type asks for marshalling. */
  lemma ValuePassedOnMarshalled<S, V>(params: PayloadOptions<S, V>, lib: GoLib<S, V>, inputs: Headers, msg: MemphisMsg, obj: Option<S>, b: Bytes, v: V, out: Bytes, h: Headers)
    requires Base64.StdDecode(msg.payload) == Some(b)
    requires var reply := ReplyTo(params, lib, inputs, msg, obj, b);
      reply.err.None? && reply.payload == Value(v) && reply.headers == Some(h)
    requires Marshals(params.payloadType) && lib.marshal(v) == Success(out)
    ensures var o := Step(params, lib, inputs, msg, obj).outcome;
      o.Emit? && o.msg.headers == h && o.msg.payload == Base64.Encode(out)
      && Base64.StdDecode(o.msg.payload) == Some(out)
  {
    Base64.StdDecodeEncode(out);
  }

  /** `null` in base64. */
  lemma NullJsonText()
    ensures Base64.Encode(NullJson) == "bnVsbA=="
  {
    NullJsonGroups();
    NullJsonCharacters();
  }

  lemma NullJsonGroups()
    ensures Base64.Encode(NullJson) == Base64.EncodeGroup(110, 117, 108) + Base64.EncodeOne(108)
  {
    assert NullJson[3..] == [108];
  }

  lemma NullJsonCharacters()
    ensures Base64.EncodeGroup(110, 117, 108) == "bnVs" && Base64.EncodeOne(108) == "bA=="
  {
    assert 110 / 4 == 27 && 110 % 4 * 16 + 117 / 16 == 39 && 117 % 16 * 4 + 108 / 64 == 21 && 108 % 64 == 44;
    assert 108 / 4 == 27 && 108 % 4 * 16 == 0;
    assert Base64.EncodeGroup(110, 117, 108) == [Base64.CharOf(27), Base64.CharOf(39), Base64.CharOf(21), Base64.CharOf(44)];
    assert Base64.EncodeOne(108) == [Base64.CharOf(27), Base64.CharOf(0), '=', '='];
    assert Base64.CharOf(27) == 'b' && Base64.CharOf(39) == 'n' && Base64.CharOf(21) == 'V';
    assert Base64.CharOf(44) == 's' && Base64.CharOf(0) == 'A';
  }

  /** A nil payload with headers is not filtered out: it is marshalled to
      `null` and passed on. */
  lemma NilPayloadPassedOnAsNull<S, V>(params: PayloadOptions<S, V>, lib: GoLib<S, V>, inputs: Headers, msg: MemphisMsg, obj: Option<S>, b: Bytes, h: Headers)
    requires Base64.StdDecode(msg.payload) == Some(b)
    requires var reply := ReplyTo(params, lib, inputs, msg, obj, b);
      reply.err.None? && reply.payload.Nil? && reply.headers == Some(h)
    requires Marshals(params.payloadType)
    ensures Step(params, lib, inputs, msg, obj).outcome == Emit(MemphisMsg(h, "bnVsbA=="))
  {
    NullJsonText();
  }

  /** Nil headers filter the message out unless an error fails it: in
      particular a reply of all nils, and a non-nil payload with nil
      headers, leave no entry in either list. */
  lemma NilHeadersFiltered<S, V>(params: PayloadOptions<S, V>, lib: GoLib<S, V>, inputs: Headers, msg: MemphisMsg, obj: Option<S>, b: Bytes)
    requires Base64.StdDecode(msg.payload) == Some(b)
    requires var reply := ReplyTo(params, lib, inputs, msg, obj, b);
      reply.err.None? && reply.headers.None?
      && !(reply.payload.Value? && Marshals(params.payloadType) && lib.marshal(reply.payload.value).Failure?)
    ensures Step(params, lib, inputs, msg, obj).outcome.Drop?
  {
  }

  /** With a user object, the handler sees the shared object only through
      the result of unmarshalling the message's bytes into it: two object
      states that unmarshal alike give the same step. */
  lemma UnmarshalledEachMessage<S, V>(params: PayloadOptions<S, V>, lib: GoLib<S, V>, inputs: Headers, msg: MemphisMsg, s1: S, s2: S, b: Bytes)
    requires Base64.StdDecode(msg.payload) == Some(b)
    requires lib.unmarshal(b, s1) == lib.unmarshal(b, s2)
    ensures Step(params, lib, inputs, msg, Some(s1)) == Step(params, lib, inputs, msg, Some(s2))
    ensures Step(params, lib, inputs, msg, Some(s1)).state == Some(ReplyTo(params, lib, inputs, msg, Some(s1), b).userObject)
  {
  }

  // ---------------------------------------------------------------------
  // The shared user object across a batch.

  /** Whether a user object is present never changes within a batch. */
  lemma {:induction false} StatesKeepPresence<S, V>(params: PayloadOptions<S, V>, lib: GoLib<S, V>, inputs: Headers, messages: seq<MemphisMsg>, obj: Option<S>)
    ensures forall i :: 0 <= i < |messages| ==> (States(params, lib, inputs, messages, obj)[i].Some? <==> obj.Some?)
    ensures FinalState(params, lib, inputs, messages, obj).Some? <==> obj.Some?
    decreases |messages|
  {
    if |messages| > 0 {
      StatesKeepPresence(params, lib, inputs, messages[1..], Step(params, lib, inputs, messages[0], obj).state);
    }
  }

  /** Splitting a batch: the second part starts from the object the first
      part leaves behind. */
  lemma {:induction false} OutcomesAppend<S, V>(params: PayloadOptions<S, V>, lib: GoLib<S, V>, inputs: Headers, a: seq<MemphisMsg>, b: seq<MemphisMsg>, obj: Option<S>)
    ensures Outcomes(params, lib, inputs, a + b, obj)
         == Outcomes(params, lib, inputs, a, obj) + Outcomes(params, lib, inputs, b, FinalState(params, lib, inputs, a, obj))
    decreases |a|
  {
    if |a| == 0 {
      assert a + b == b;
    } else {
      var next := Step(params, lib, inputs, a[0], obj).state;
      assert (a + b)[0] == a[0] && (a + b)[1..] == a[1..] + b;
      OutcomesAppend(params, lib, inputs, a[1..], b, next);
    }
  }

  /** Without a user object, each message is processed on its own. */
  lemma BytesModeIndependent<S, V>(params: PayloadOptions<S, V>, lib: GoLib<S, V>, inputs: Headers, messages: seq<MemphisMsg>)
    ensures forall i :: 0 <= i < |messages| ==>
      Outcomes(params, lib, inputs, messages, None)[i] == Step(params, lib, inputs, messages[i], None).outcome
  {
    StatesKeepPresence(params, lib, inputs, messages, None);
    forall i | 0 <= i < |messages|
      ensures Outcomes(params, lib, inputs, messages, None)[i] == Step(params, lib, inputs, messages[i], None).outcome
    {
      OutcomesAt(params, lib, inputs, messages, None, i);
    }
  }

  /** Without a user object, handling a batch in two invocations gives the
      same lists as handling it in one: the two outputs concatenate, and the
      whole aborts exactly when one part does. */
  lemma BytesModeBatchSplits<S, V>(eventHandler: HandlerType<S, V>, options: seq<PayloadOption<S, V>>, lib: GoLib<S, V>, inputs: Headers, a: seq<MemphisMsg>, b: seq<MemphisMsg>)
    requires ApplyOptions(Defaults(eventHandler), options).Success?
    requires ApplyOptions(Defaults(eventHandler), options).value.userObject.None?
    ensures var whole := LambdaHandler(eventHandler, options, lib, MemphisEvent(inputs, a + b));
      var ra := LambdaHandler(eventHandler, options, lib, MemphisEvent(inputs, a));
      var rb := LambdaHandler(eventHandler, options, lib, MemphisEvent(inputs, b));
      if ra.Success? && rb.Success?
      then whole == Success(MemphisOutput(ra.value.messages + rb.value.messages, ra.value.failedMessages + rb.value.failedMessages))
      else whole == Failure(TypeAssertionPanic)
  {
    var params := ApplyOptions(Defaults(eventHandler), options).value;
    var ta := Outcomes(params, lib, inputs, a, None);
    var tb := Outcomes(params, lib, inputs, b, None);
    StatesKeepPresence(params, lib, inputs, a, None);
    OutcomesAppend(params, lib, inputs, a, b, None);
    assert Outcomes(params, lib, inputs, a + b, None) == ta + tb;
    LambdaHandlerSorts(eventHandler, options, lib, MemphisEvent(inputs, a + b));
    LambdaHandlerSorts(eventHandler, options, lib, MemphisEvent(inputs, a));
    LambdaHandlerSorts(eventHandler, options, lib, MemphisEvent(inputs, b));
    AbortsAppend(ta, tb);
    SortAppend(ta, tb);
  }

  // ---------------------------------------------------------------------
  // Options.

  /** Applying options one list after another is applying the concatenated
      list, and an error in the first list skips the second. */
  lemma {:induction false} ApplyOptionsAppend<S, V>(params: PayloadOptions<S, V>, a: seq<PayloadOption<S, V>>, b: seq<PayloadOption<S, V>>)
    ensures ApplyOptions(params, a + b)
         == match ApplyOptions(params, a)
            case Failure(e) => Failure(e)
            case Success(q) => ApplyOptions(q, b)
    decreases |a|
  {
    if |a| == 0 {
      assert a + b == b;
    } else {
      assert (a + b)[0] == a[0] && (a + b)[1..] == a[1..] + b;
      match a[0]
      case None => ApplyOptionsAppend(params, a[1..], b);
      case Some(option) =>
        if option(params).Success? {
          ApplyOptionsAppend(option(params).value, a[1..], b);
        }
    }
  }

  /** A nil option changes nothing. */
  lemma NilOptionSkipped<S, V>(params: PayloadOptions<S, V>, a: seq<PayloadOption<S, V>>, b: seq<PayloadOption<S, V>>)
    ensures ApplyOptions(params, a + [None] + b) == ApplyOptions(params, a + b)
  {
    var nil: seq<PayloadOption<S, V>> := [None];
    ApplyOptionsAppend(params, a + nil, b);
    ApplyOptionsAppend(params, a, nil);
    ApplyOptionsAppend(params, a, b);
    assert nil[1..] == [];
  }

  /** The first option that reports an error ends the invocation with that
      error and no output, whatever options and messages follow. */
  lemma FailingOptionAborts<S, V>(eventHandler: HandlerType<S, V>, a: seq<PayloadOption<S, V>>, option: PayloadOptions<S, V> -> Result<PayloadOptions<S, V>, string>, b: seq<PayloadOption<S, V>>, lib: GoLib<S, V>, event: MemphisEvent)
    requires ApplyOptions(Defaults(eventHandler), a).Success?
    requires option(ApplyOptions(Defaults(eventHandler), a).value).Failure?
    ensures LambdaHandler(eventHandler, a + [Some(option)] + b, lib, event)
         == Failure(OptionFailed(option(ApplyOptions(Defaults(eventHandler), a).value).error))
  {
    var q := ApplyOptions(Defaults(eventHandler), a).value;
    ApplyOptionsAppend(Defaults(eventHandler), a + [Some(option)], b);
    ApplyOptionsAppend(Defaults(eventHandler), a, [Some(option)]);
    assert [Some(option)][1..] == [];
  }

  /** `PayloadInfo` options with the given schemas and payload types. */
  function PayloadInfos<S, V>(infos: seq<(Option<S>, int)>): seq<PayloadOption<S, V>> {
    seq(|infos|, i requires 0 <= i < |infos| => PayloadInfo(infos[i].0, infos[i].1))
  }

  /** `PayloadInfo` never fails and overwrites exactly the user object and
      the payload type, so among several the last one wins; with none, the
      defaults stand. */
  lemma {:induction false} PayloadInfosLastWins<S, V>(params: PayloadOptions<S, V>, infos: seq<(Option<S>, int)>)
    ensures var r := ApplyOptions(params, PayloadInfos<S, V>(infos));
      && r.Success?
      && r.value.handler == params.handler
      && (|infos| == 0 ==> r.value == params)
      && (|infos| > 0 ==> r.value.userObject == infos[|infos| - 1].0 && r.value.payloadType == infos[|infos| - 1].1)
    decreases |infos|
  {
    if |infos| > 0 {
      var init := infos[..|infos| - 1];
      var last := infos[|infos| - 1];
      assert PayloadInfos<S, V>(infos) == PayloadInfos<S, V>(init) + [PayloadInfo(last.0, last.1)];
      PayloadInfosLastWins(params, init);
      ApplyOptionsAppend(params, PayloadInfos<S, V>(init), [PayloadInfo(last.0, last.1)]);
      var q := ApplyOptions(params, PayloadInfos<S, V>(init)).value;
      assert ApplyOptions(q, [PayloadInfo<S, V>(last.0, last.1)]) == ApplyOptions(q.(userObject := last.0, payloadType := last.1), []);
    }
  }

  /** With no options the handler gets the raw bytes and non-`[]byte`
      payloads are marshalled (`BYTES`). */
  lemma NoOptionsDefaults<S, V>(eventHandler: HandlerType<S, V>, lib: GoLib<S, V>, event: MemphisEvent)
    ensures ApplyOptions(Defaults(eventHandler), []).Success?
    ensures var p := ApplyOptions(Defaults(eventHandler), []).value;
      p.userObject.None? && p.payloadType == BYTES && Marshals(p.payloadType)
    ensures forall i :: 0 <= i < |event.messages| ==>
      EventOutcomes(eventHandler, [], lib, event)[i] == Step(Defaults(eventHandler), lib, event.inputs, event.messages[i], None).outcome
  {
    BytesModeIndependent(Defaults(eventHandler), lib, event.inputs, event.messages);
  }

  // ---------------------------------------------------------------------
  // Round trip through a handler that changes nothing.

  /** A handler that hands back the raw bytes and headers it is given. */
  ghost predicate PassesThrough<S, V>(handler: HandlerType<S, V>) {
    forall b, headers, inputs :: var r := handler(RawPayload(b), headers, inputs);
      r.err.None? && r.payload == ByteSlice(b) && r.headers == Some(headers)
  }

  /** Whether `payload` is the base64 text the encoder produces for some bytes. */
  predicate Canonical(payload: string) {
    Base64.StdDecode(payload).Some? && Base64.Encode(Base64.StdDecode(payload).value) == payload
  }

  /** With no options and a handler that changes nothing, a batch of
      canonical base64 payloads comes back unchanged, in order, with nothing
      failed or filtered. */
  lemma PassThroughRoundTrip<S, V>(eventHandler: HandlerType<S, V>, lib: GoLib<S, V>, event: MemphisEvent)
    requires PassesThrough(eventHandler)
    requires forall i :: 0 <= i < |event.messages| ==> Canonical(event.messages[i].payload)
    ensures LambdaHandler(eventHandler, [], lib, event) == Success(MemphisOutput(event.messages, []))
  {
    var t := EventOutcomes(eventHandler, [], lib, event);
    NoOptionsDefaults(eventHandler, lib, event);
    forall i | 0 <= i < |t|
      ensures t[i] == Emit(event.messages[i])
    {
      var msg := event.messages[i];
      var b := Base64.StdDecode(msg.payload).value;
      assert ReplyTo(Defaults(eventHandler), lib, event.inputs, msg, None, b) == eventHandler(RawPayload(b), msg.headers, event.inputs);
    }
    SortAllEmitted(t, event.messages);
    LambdaHandlerSorts(eventHandler, [], lib, event);
  }

  /** Conversely, whatever the handler, a batch that comes back unchanged
      with nothing failed holds only canonical base64 payloads. */
  lemma ReproducedOnlyIfCanonical<S, V>(eventHandler: HandlerType<S, V>, lib: GoLib<S, V>, event: MemphisEvent)
    requires LambdaHandler(eventHandler, [], lib, event) == Success(MemphisOutput(event.messages, []))
    ensures forall i :: 0 <= i < |event.messages| ==> Canonical(event.messages[i].payload)
  {
    EmittedInOrder(eventHandler, [], lib, event);
  }

  /** A decodable payload that is not canonical does not survive the round
      trip: `QR==` decodes to the single byte 65 and comes back as `QQ==`. */
  lemma PassThroughCanonicalizes<S, V>(eventHandler: HandlerType<S, V>, lib: GoLib<S, V>, headers: Headers, inputs: Headers)
    requires PassesThrough(eventHandler)
    ensures LambdaHandler(eventHandler, [], lib, MemphisEvent(inputs, [MemphisMsg(headers, "QR==")]))
         == Success(MemphisOutput([MemphisMsg(headers, "QQ==")], []))
  {
    var event := MemphisEvent(inputs, [MemphisMsg(headers, "QR==")]);
    Base64.StrayBitsAccepted();
    NoOptionsDefaults(eventHandler, lib, event);
    var t := EventOutcomes(eventHandler, [], lib, event);
    assert eventHandler(RawPayload([65]), headers, inputs).payload == ByteSlice([65]);
    assert t[0] == Emit(MemphisMsg(headers, "QQ=="));
    SortAllEmitted(t, [MemphisMsg(headers, "QQ==")]);
    LambdaHandlerSorts(eventHandler, [], lib, event);
  }
}

=== FILE: memphis_py.dfy ===
/** The Python template: the `handler` coroutine that `create_function`
    builds around a user `event_handler`.

    One invocation receives an event (a batch of messages whose payloads are
    base64 text, and the function's inputs). Every message is decoded,
    optionally parsed as JSON, given to the event handler, and sorted into
    the messages to pass on, the failed messages, or neither. The answer is
    the JSON envelope of both lists, with every passed-on `bytes` payload
    written as base64 text, or an error string when the envelope cannot be
    serialized.

    Python values are modelled by the small grammar `PyObj`. The library
    calls whose internals are not modelled (the lenient `base64.b64decode`,
    UTF-8 decoding, `json.loads`) are fields of a `PyLib` value; the JSON
    serialization of the envelope is modelled concretely. */
module MemphisPy {
  import opened Wrappers
  import Base64
  import opened Buckets
  import opened Common

  /** A Python value: `None`, `bool`, `int`, `str`, `bytes`, `list`, `tuple`,
      `dict` (with string keys, in insertion order), or an instance of any
      other class, named by its module and class name. An instance of a
      subclass of one of the built-in types is represented by that type's
      constructor. */
  datatype PyObj =
    | PyNone
    | PyBool(b: bool)
    | PyInt(i: int)
    | PyStr(s: string)
    | PyBytes(bytes: Bytes)
    | PyList(elems: seq<PyObj>)
    | PyTuple(elems: seq<PyObj>)
    | PyDict(items: seq<(string, PyObj)>)
    | PyObject(moduleName: string, name: string)

  datatype Message = Message(headers: Headers, payload: string)

  datatype Event = Event(messages: seq<Message>, inputs: Headers)

  /** One call of the event handler: it raises (the text is `str(e)`; a
      result that does not unpack into two values raises too), or returns the
      processed message and the processed headers. */
  datatype Reply = Raised(error: string) | Returned(message: PyObj, headers: PyObj)

  /** The event handler: payload, message headers, function inputs. */
  type EventHandler = (PyObj, Headers, Headers) -> Reply

  /** The library calls the template makes but whose workings are not
      modelled, each giving a value or the text of the exception it raises:
      UTF-8 encoding of the payload text followed by `base64.b64decode`,
      `str(payload, 'utf-8')`, and `json.loads`. */
  datatype PyLib = PyLib(b64decode: string -> Result<Bytes, string>, utf8Decode: Bytes -> Result<string, string>, jsonLoads: string -> Result<PyObj, string>)

  /** An entry of `messages` before serialization. */
  datatype Processed = Processed(headers: seq<(string, PyObj)>, payload: Bytes)

  /** An entry of `failed_messages`. */
  datatype FailedMessage = FailedMessage(headers: Headers, payload: string, error: string)

  /** What `type(o)` prints. */
  function TypeName(o: PyObj): string {
    match o
    case PyNone => "<class 'NoneType'>"
    case PyBool(_) => "<class 'bool'>"
    case PyInt(_) => "<class 'int'>"
    case PyStr(_) => "<class 'str'>"
    case PyBytes(_) => "<class 'bytes'>"
    case PyList(_) => "<class 'list'>"
    case PyTuple(_) => "<class 'tuple'>"
    case PyDict(_) => "<class 'dict'>"
    case PyObject(moduleName, name) =>
      if moduleName == "builtins" then "<class '" + name + "'>" else "<class '" + moduleName + "." + name + "'>"
  }

  function MixedNoneError(message: PyObj, headers: PyObj): string {
    "processed_messages is of type " + TypeName(message) + " and processed_headers is " + TypeName(headers)
      + ". Either both of these should be None or neither"
  }

  const FormatError: string :=
    "The returned processed_message or processed_headers were not in the right format. processed_message must be bytes and processed_headers, dict"

  /** The payload the event handler is given: the decoded bytes, or with
      `as_json` the JSON value those bytes hold as UTF-8 text. */
  function HandlerPayload(lib: PyLib, asJson: bool, payload: string): (r: Result<PyObj, string>)
    ensures lib.b64decode(payload).Failure? ==> r == Failure(lib.b64decode(payload).error)
    ensures !asJson ==> (r.Success? <==> lib.b64decode(payload).Success?)
  {
    match lib.b64decode(payload)
    case Failure(e) => Failure(e)
    case Success(b) =>
      if !asJson then Success(PyBytes(b))
      else match lib.utf8Decode(b)
        case Failure(e) => Failure(e)
        case Success(text) => lib.jsonLoads(text)
  }

  /** What the template does with the two values the handler returns:
      an entry to pass on, nothing (filtered out), or the text of the
      exception it raises. */
  function Classify(message: PyObj, headers: PyObj): (r: Result<Option<Processed>, string>)
    ensures r.Success? && r.value.Some? <==> message.PyBytes? && headers.PyDict?
    ensures r.Success? && r.value.None? <==> message.PyNone? && headers.PyNone?
  {
    if message.PyBytes? && headers.PyDict? then Success(Some(Processed(headers.items, message.bytes)))
    else if message.PyNone? && headers.PyNone? then Success(None)
    else if message.PyNone? || headers.PyNone? then Failure(MixedNoneError(message, headers))
    else Failure(FormatError)
  }

  /** One pass of the message loop; any exception becomes a failed entry
      that echoes the original message. */
  function Step(handler: EventHandler, lib: PyLib, asJson: bool, inputs: Headers, msg: Message): (o: Outcome<Processed, FailedMessage>)
    ensures !o.Abort?
    ensures o.Fail? ==> o.failure.headers == msg.headers && o.failure.payload == msg.payload
  {
    var result: Result<Option<Processed>, string> :=
      match HandlerPayload(lib, asJson, msg.payload)
      case Failure(e) => Failure(e)
      case Success(payload) =>
        match handler(payload, msg.headers, inputs)
        case Raised(e) => Failure(e)
        case Returned(message, headers) => Classify(message, headers);
    match result
    case Failure(e) => Fail(FailedMessage(msg.headers, msg.payload, e))
    case Success(None) => Drop
    case Success(Some(p)) => Emit(p)
  }

  /** The message loop, appending to the two lists as it goes. */
  function Loop(handler: EventHandler, lib: PyLib, asJson: bool, inputs: Headers, messages: seq<Message>, acc: Sorted<Processed, FailedMessage>): Sorted<Processed, FailedMessage>
    decreases |messages|
  {
    if |messages| == 0 then acc
    else Loop(handler, lib, asJson, inputs, messages[1..], Push(acc, Step(handler, lib, asJson, inputs, messages[0])))
  }

  /** The `append` of one outcome to the list it belongs in. */
  function Push(acc: Sorted<Processed, FailedMessage>, o: Outcome<Processed, FailedMessage>): Sorted<Processed, FailedMessage> {
    match o
    case Emit(p) => acc.(messages := acc.messages + [p])
    case Fail(f) => acc.(failed := acc.failed + [f])
    case _ => acc
  }

  // ---------------------------------------------------------------------
  // Serialization of the envelope.

  /** A JSON value. */
  datatype Json =
    | JNull
    | JBool(b: bool)
    | JInt(i: int)
    | JStr(s: string)
    | JList(elems: seq<Json>)
    | JObject(members: seq<(string, Json)>)

  /** `json.dumps` with the `EncodeBase64` encoder, on one value: lists and
      tuples become arrays, `bytes` become their base64 text, other classes
      cannot be serialized. The first value in document order that cannot be
      serialized decides the error. */
  function ToJson(o: PyObj): Result<Json, string>
    decreases o
  {
    match o
    case PyNone => Success(JNull)
    case PyBool(b) => Success(JBool(b))
    case PyInt(i) => Success(JInt(i))
    case PyStr(s) => Success(JStr(s))
    case PyBytes(b) => Success(JStr(Base64.Encode(b)))
    case PyList(xs) =>
      (match ToJsonList(xs)
       case Failure(e) => Failure(e)
       case Success(js) => Success(JList(js)))
    case PyTuple(xs) =>
      (match ToJsonList(xs)
       case Failure(e) => Failure(e)
       case Success(js) => Success(JList(js)))
    case PyDict(items) =>
      (match ToJsonItems(items)
       case Failure(e) => Failure(e)
       case Success(ms) => Success(JObject(ms)))
    case PyObject(_, name) => Failure("Object of type " + name + " is not JSON serializable")
  }

  function ToJsonList(xs: seq<PyObj>): (r: Result<seq<Json>, string>)
    ensures r.Success? ==> |r.value| == |xs| && forall k :: 0 <= k < |xs| ==> ToJson(xs[k]) == Success(r.value[k])
    decreases xs
  {
    if |xs| == 0 then Success([])
    else match ToJson(xs[0])
      case Failure(e) => Failure(e)
      case Success(j) =>
        match ToJsonList(xs[1..])
        case Failure(e) => Failure(e)
        case Success(js) => Success([j] + js)
  }

  function ToJsonItems(items: seq<(string, PyObj)>): (r: Result<seq<(string, Json)>, string>)
    ensures r.Success? ==> |r.value| == |items|
    ensures r.Success? ==> forall k :: 0 <= k < |items| ==> r.value[k].0 == items[k].0
    decreases items
  {
    if |items| == 0 then Success([])
    else
      assert items[0].1 < items[0];
      match ToJson(items[0].1)
      case Failure(e) => Failure(e)
      case Success(j) =>
        match ToJsonItems(items[1..])
        case Failure(e) => Failure(e)
        case Success(ms) => Success([(items[0].0, j)] + ms)
  }

  /** An entry of `messages` as serialized. */
  datatype OutMessage = OutMessage(headers: seq<(string, Json)>, payload: string)

  /** The serialized entries of `messages`, or the first serialization
      error (headers are serialized before the payload). */
  function SerializeMessages(ps: seq<Processed>): (r: Result<seq<OutMessage>, string>)
    ensures r.Success? ==> |r.value| == |ps|
    decreases |ps|
  {
    if |ps| == 0 then Success([])
    else match ToJsonItems(ps[0].headers)
      case Failure(e) => Failure(e)
      case Success(hs) =>
        match SerializeMessages(ps[1..])
        case Failure(e) => Failure(e)
        case Success(rest) => Success([OutMessage(hs, Base64.Encode(ps[0].payload))] + rest)
  }

  datatype Envelope = Envelope(messages: seq<OutMessage>, failedMessages: seq<FailedMessage>)

  /** What the invocation returns: the envelope (as UTF-8 JSON text in the
      template), or the serialization error message. */
  datatype Response = Body(envelope: Envelope) | Unserializable(message: string)

  const UnserializablePrefix: string := "Returned message types from user function are not able to be converted into JSON: "

  /** The `try` around `json.dumps`. The failed entries echo the event's own
      strings and always serialize. */
  function Respond(sorted: Sorted<Processed, FailedMessage>): Response {
    match SerializeMessages(sorted.messages)
    case Failure(e) => Unserializable(UnserializablePrefix + e)
    case Success(outs) => Body(Envelope(outs, sorted.failed))
  }

  /** `create_function(event, event_handler, as_json=asJson)`. */
  function CreateFunction(event: Event, handler: EventHandler, asJson: bool, lib: PyLib): Response {
    Respond(Loop(handler, lib, asJson, event.inputs, event.messages, Sorted([], [])))
  }

  // ---------------------------------------------------------------------
  // The loop.

  /** The outcome of each message, in input order. */
  function Outcomes(handler: EventHandler, lib: PyLib, asJson: bool, inputs: Headers, messages: seq<Message>): (t: seq<Outcome<Processed, FailedMessage>>)
  {
    seq(|messages|, i requires 0 <= i < |messages| => Step(handler, lib, asJson, inputs, messages[i]))
  }

  /** The loop sorts the outcomes, in order, after what it already holds. */
  lemma {:induction false} LoopSortsOutcomes(handler: EventHandler, lib: PyLib, asJson: bool, inputs: Headers, messages: seq<Message>, acc: Sorted<Processed, FailedMessage>)
    ensures Loop(handler, lib, asJson, inputs, messages, acc) == Concat(acc, Sort(Outcomes(handler, lib, asJson, inputs, messages)))
    decreases |messages|
  {
    if |messages| == 0 {
      assert acc.messages + [] == acc.messages && acc.failed + [] == acc.failed;
    } else {
      var o := Step(handler, lib, asJson, inputs, messages[0]);
      var rest := Outcomes(handler, lib, asJson, inputs, messages[1..]);
      OutcomesCons(handler, lib, asJson, inputs, messages);
      LoopSortsOutcomes(handler, lib, asJson, inputs, messages[1..], Push(acc, o));
      PushSorts(acc, o, rest);
    }
  }

  lemma OutcomesCons(handler: EventHandler, lib: PyLib, asJson: bool, inputs: Headers, messages: seq<Message>)
    requires |messages| > 0
    ensures Outcomes(handler, lib, asJson, inputs, messages)
         == [Step(handler, lib, asJson, inputs, messages[0])] + Outcomes(handler, lib, asJson, inputs, messages[1..])
  {
  }

  /** Pushing one outcome and then the sorted rest is pushing the sorted
      whole. */
  lemma PushSorts(acc: Sorted<Processed, FailedMessage>, o: Outcome<Processed, FailedMessage>, rest: seq<Outcome<Processed, FailedMessage>>)
    requires !o.Abort?
    ensures Concat(Push(acc, o), Sort(rest)) == Concat(acc, Sort([o] + rest))
  {
    SortCons(o, rest);
    match o
    case Emit(p) => assert acc.messages + [p] + Sort(rest).messages == acc.messages + ([p] + Sort(rest).messages);
    case Fail(f) => assert acc.failed + [f] + Sort(rest).failed == acc.failed + ([f] + Sort(rest).failed);
    case Drop =>
  }

  /** The two lists the invocation builds are the sorted outcomes. */
  lemma HandlerSorts(event: Event, handler: EventHandler, asJson: bool, lib: PyLib)
    ensures Loop(handler, lib, asJson, event.inputs, event.messages, Sorted([], []))
         == Sort(Outcomes(handler, lib, asJson, event.inputs, event.messages))
  {
    var t := Outcomes(handler, lib, asJson, event.inputs, event.messages);
    LoopSortsOutcomes(handler, lib, asJson, event.inputs, event.messages, Sorted([], []));
    assert [] + Sort(t).messages == Sort(t).messages && [] + Sort(t).failed == Sort(t).failed;
  }

  /** No message aborts the Python loop. */
  lemma NeverAborts(handler: EventHandler, lib: PyLib, asJson: bool, inputs: Headers, messages: seq<Message>)
    ensures !Aborts(Outcomes(handler, lib, asJson, inputs, messages))
  {
  }

  /** Each input message contributes at most one entry: passed-on, failed and
      filtered messages add up to the batch. */
  lemma BatchAccounting(event: Event, handler: EventHandler, asJson: bool, lib: PyLib)
    ensures var s := Loop(handler, lib, asJson, event.inputs, event.messages, Sorted([], []));
      var t := Outcomes(handler, lib, asJson, event.inputs, event.messages);
      |s.messages| + |s.failed| + Dropped(t) == |event.messages|
  {
    HandlerSorts(event, handler, asJson, lib);
    NeverAborts(handler, lib, asJson, event.inputs, event.messages);
    SortAccounts(Outcomes(handler, lib, asJson, event.inputs, event.messages));
  }

  /** The failed entries echo the headers and payload their messages arrived
      with; those messages are listed in input order and without omission. */
  lemma FailedEchoInputs(event: Event, handler: EventHandler, asJson: bool, lib: PyLib)
    ensures var s := Loop(handler, lib, asJson, event.inputs, event.messages, Sorted([], []));
      var t := Outcomes(handler, lib, asJson, event.inputs, event.messages);
      var ix := FailPositions(t);
      && |ix| == |s.failed| && Increasing(ix)
      && (forall k :: 0 <= k < |ix| ==>
            && ix[k] < |event.messages|
            && s.failed[k].headers == event.messages[ix[k]].headers
            && s.failed[k].payload == event.messages[ix[k]].payload)
      && (forall i :: 0 <= i < |t| && t[i].Fail? ==> i in ix)
  {
    HandlerSorts(event, handler, asJson, lib);
    FailPositionsExact(Outcomes(handler, lib, asJson, event.inputs, event.messages));
  }

  /** The entries to pass on are the successful outcomes, in input order and
      without omission. */
  lemma PassedOnInOrder(event: Event, handler: EventHandler, asJson: bool, lib: PyLib)
    ensures var s := Loop(handler, lib, asJson, event.inputs, event.messages, Sorted([], []));
      var t := Outcomes(handler, lib, asJson, event.inputs, event.messages);
      var ix := EmitPositions(t);
      && |ix| == |s.messages| && Increasing(ix)
      && (forall k :: 0 <= k < |ix| ==> ix[k] < |t| && t[ix[k]] == Emit(s.messages[k]))
      && (forall i :: 0 <= i < |t| && t[i].Emit? ==> i in ix)
  {
    HandlerSorts(event, handler, asJson, lib);
    EmitPositionsExact(Outcomes(handler, lib, asJson, event.inputs, event.messages));
  }

  // ---------------------------------------------------------------------
  // One message.

  /** A payload that cannot be decoded (or, with `as_json`, read as UTF-8
      JSON) fails that message with the exception's text, without calling
      the handler. */
  lemma PayloadErrorFails(handler: EventHandler, other: EventHandler, lib: PyLib, asJson: bool, inputs: Headers, msg: Message)
    requires HandlerPayload(lib, asJson, msg.payload).Failure?
    ensures Step(handler, lib, asJson, inputs, msg)
         == Fail(FailedMessage(msg.headers, msg.payload, HandlerPayload(lib, asJson, msg.payload).error))
    ensures Step(other, lib, asJson, inputs, msg) == Step(handler, lib, asJson, inputs, msg)
  {
  }

  /** With `as_json`, the handler is given the parsed JSON value of the
      payload text; without, the decoded bytes. */
  lemma HandlerGetsParsedJson(lib: PyLib, payload: string, b: Bytes, text: string)
    requires lib.b64decode(payload) == Success(b)
    ensures HandlerPayload(lib, false, payload) == Success(PyBytes(b))
    ensures lib.utf8Decode(b) == Success(text) ==> HandlerPayload(lib, true, payload) == lib.jsonLoads(text)
    ensures lib.utf8Decode(b).Failure? ==> HandlerPayload(lib, true, payload) == Failure(lib.utf8Decode(b).error)
  {
  }

  /** An exception raised by the handler fails the message with its text. */
  lemma RaisedFails(handler: EventHandler, lib: PyLib, asJson: bool, inputs: Headers, msg: Message, payload: PyObj, e: string)
    requires HandlerPayload(lib, asJson, msg.payload) == Success(payload)
    requires handler(payload, msg.headers, inputs) == Raised(e)
    ensures Step(handler, lib, asJson, inputs, msg) == Fail(FailedMessage(msg.headers, msg.payload, e))
  {
  }

  /** For a reply of two values, the message is passed on exactly when the
      values are `bytes` and a `dict`, and then as exactly those headers and
      bytes; it is filtered out exactly when both are `None`; it fails with
      the mixed-`None` error exactly when one of them is `None`; and it fails
      with the format error otherwise. */
  lemma ReturnedDecidesBucket(handler: EventHandler, lib: PyLib, asJson: bool, inputs: Headers, msg: Message, payload: PyObj, message: PyObj, headers: PyObj)
    requires HandlerPayload(lib, asJson, msg.payload) == Success(payload)
    requires handler(payload, msg.headers, inputs) == Returned(message, headers)
    ensures var o := Step(handler, lib, asJson, inputs, msg);
      && (o.Emit? <==> message.PyBytes? && headers.PyDict?)
      && (o.Emit? ==> o.msg == Processed(headers.items, message.bytes))
      && (o.Drop? <==> message.PyNone? && headers.PyNone?)
      && ((message.PyNone? != headers.PyNone?) ==>
            o == Fail(FailedMessage(msg.headers, msg.payload, MixedNoneError(message, headers))))
      && (!message.PyNone? && !headers.PyNone? && !(message.PyBytes? && headers.PyDict?) ==>
            o == Fail(FailedMessage(msg.headers, msg.payload, FormatError)))
  {
  }

  // ---------------------------------------------------------------------
  // Serialization.

  /** Whether `json.dumps` with the `EncodeBase64` encoder accepts a value:
      it holds no instance of an unsupported class. */
  predicate Serializable(o: PyObj) {
    match o
    case PyList(xs) => forall k :: 0 <= k < |xs| ==> Serializable(xs[k])
    case PyTuple(xs) => forall k :: 0 <= k < |xs| ==> Serializable(xs[k])
    case PyDict(items) => forall k :: 0 <= k < |items| ==> Serializable(items[k].1)
    case PyObject(_, _) => false
    case _ => true
  }

  /** `EncodeBase64.default`: a `bytes` value anywhere in the envelope is
      written as a string holding its base64 text, which decodes back to the
      same bytes. */
  lemma BytesSerializeAsBase64(b: Bytes)
    ensures ToJson(PyBytes(b)).Success? && ToJson(PyBytes(b)).value.JStr?
    ensures Base64.StdDecode(ToJson(PyBytes(b)).value.s) == Some(b)
  {
    Base64.StdDecodeEncode(b);
  }

  /** Serialized headers hold, under each key, the serialization of that
      key's value. */
  lemma {:induction false} ToJsonItemsValues(items: seq<(string, PyObj)>)
    requires ToJsonItems(items).Success?
    ensures forall k :: 0 <= k < |items| ==> ToJson(items[k].1) == Success(ToJsonItems(items).value[k].1)
    decreases |items|
  {
    if |items| > 0 {
      ToJsonItemsValues(items[1..]);
      assert forall k :: 1 <= k < |items| ==> items[k] == items[1..][k - 1];
    }
  }

  /** Serialization succeeds exactly on serializable values. */
  lemma {:induction false} ToJsonSucceedsIff(o: PyObj)
    ensures ToJson(o).Success? <==> Serializable(o)
    decreases o, 1
  {
    match o
    case PyList(xs) => ToJsonListSucceedsIff(xs);
    case PyTuple(xs) => ToJsonListSucceedsIff(xs);
    case PyDict(items) => ToJsonItemsSucceedsIff(items);
    case _ =>
  }

  lemma {:induction false} ToJsonListSucceedsIff(xs: seq<PyObj>)
    ensures ToJsonList(xs).Success? <==> forall k :: 0 <= k < |xs| ==> Serializable(xs[k])
    decreases xs, 0
  {
    if |xs| > 0 {
      ToJsonSucceedsIff(xs[0]);
      ToJsonListSucceedsIff(xs[1..]);
      assert forall k :: 1 <= k < |xs| ==> xs[k] == xs[1..][k - 1];
    }
  }

  lemma {:induction false} ToJsonItemsSucceedsIff(items: seq<(string, PyObj)>)
    ensures ToJsonItems(items).Success? <==> forall k :: 0 <= k < |items| ==> Serializable(items[k].1)
    decreases items, 0
  {
    if |items| > 0 {
      assert items[0].1 < items[0];
      ToJsonSucceedsIff(items[0].1);
      ToJsonItemsSucceedsIff(items[1..]);
      assert forall k :: 1 <= k < |items| ==> items[k] == items[1..][k - 1];
    }
  }

  /** The passed-on entries serialize exactly when all their headers do. */
  lemma {:induction false} SerializeMessagesSucceedsIff(ps: seq<Processed>)
    ensures SerializeMessages(ps).Success? <==> forall k :: 0 <= k < |ps| ==> ToJsonItems(ps[k].headers).Success?
    decreases |ps|
  {
    if |ps| > 0 {
      SerializeMessagesSucceedsIff(ps[1..]);
      assert forall k :: 1 <= k < |ps| ==> ps[k] == ps[1..][k - 1];
    }
  }

  /** Each serialized entry keeps its headers' serialization, and its payload
      is base64 text that decodes to exactly the bytes the handler returned. */
  lemma {:induction false} SerializedPayloadsDecode(ps: seq<Processed>)
    requires SerializeMessages(ps).Success?
    ensures forall k :: 0 <= k < |ps| ==>
      && ToJsonItems(ps[k].headers).Success?
      && SerializeMessages(ps).value[k].headers == ToJsonItems(ps[k].headers).value
      && Base64.StdDecode(SerializeMessages(ps).value[k].payload) == Some(ps[k].payload)
    decreases |ps|
  {
    if |ps| > 0 {
      var rest := SerializeMessages(ps[1..]).value;
      SerializedPayloadsDecode(ps[1..]);
      Base64.StdDecodeEncode(ps[0].payload);
      assert SerializeMessages(ps).value == [OutMessage(ToJsonItems(ps[0].headers).value, Base64.Encode(ps[0].payload))] + rest;
      assert forall k :: 1 <= k < |ps| ==> ps[k] == ps[1..][k - 1];
    }
  }

  /** What the invocation answers: the envelope exactly when the headers of
      every passed-on entry serialize, with the failed list unchanged and
      every passed-on payload readable back as the handler's bytes;
      otherwise the error message with its fixed prefix. */
  lemma RespondSpec(sorted: Sorted<Processed, FailedMessage>)
    ensures Respond(sorted).Body? <==> forall k :: 0 <= k < |sorted.messages| ==> ToJsonItems(sorted.messages[k].headers).Success?
    ensures Respond(sorted).Body? ==>
      && Respond(sorted).envelope.failedMessages == sorted.failed
      && |Respond(sorted).envelope.messages| == |sorted.messages|
      && forall k :: 0 <= k < |sorted.messages| ==>
           Base64.StdDecode(Respond(sorted).envelope.messages[k].payload) == Some(sorted.messages[k].payload)
    ensures Respond(sorted).Unserializable? ==>
      Respond(sorted).message[..|UnserializablePrefix|] == UnserializablePrefix
  {
    SerializeMessagesSucceedsIff(sorted.messages);
    if SerializeMessages(sorted.messages).Success? {
      SerializedPayloadsDecode(sorted.messages);
    }
  }

  /** The whole invocation: the envelope holds the failed entries in input
      order, and the passed-on entries' payloads decode back to the bytes the
      handler returned for them, in input order; it is refused exactly when
      some passed-on entry's headers hold a value `json.dumps` rejects. */
  lemma CreateFunctionSpec(event: Event, handler: EventHandler, asJson: bool, lib: PyLib)
    ensures var s := Sort(Outcomes(handler, lib, asJson, event.inputs, event.messages));
      var r := CreateFunction(event, handler, asJson, lib);
      && (r.Body? <==> forall k :: 0 <= k < |s.messages| ==> Serializable(PyDict(s.messages[k].headers)))
      && (r.Body? ==> r.envelope.failedMessages == s.failed && |r.envelope.messages| == |s.messages|)
      && (r.Body? ==> forall k :: 0 <= k < |s.messages| ==>
            Base64.StdDecode(r.envelope.messages[k].payload) == Some(s.messages[k].payload))
  {
    var s := Sort(Outcomes(handler, lib, asJson, event.inputs, event.messages));
    HandlerSorts(event, handler, asJson, lib);
    RespondSpec(s);
    forall k | 0 <= k < |s.messages|
      ensures ToJsonItems(s.messages[k].headers).Success? <==> Serializable(PyDict(s.messages[k].headers))
    {
      ToJsonItemsSucceedsIff(s.messages[k].headers);
    }
  }
}

=== FILE: wrappers.dfy ===
/** Plain sum types shared by the rest of the model: `Option` stands for Go's
    `nil` and Python's `None`, `Result` for a value-or-error return. */
module Wrappers {

  datatype Option<+T> = None | Some(value: T)

  datatype Result<+T, +E> = Success(value: T) | Failure(error: E)
}
